=== FILE: README.md ===
# Shape-network reduction and verdict hand-off, modelled in Dafny

This project models the small, sequential rules around the constraint-shape
network and the validation-result hand-off of shaclAPI. shaclAPI is a service that answers a
SPARQL query and filters the answers by the SHACL validation status of each instance:

- **Query-aware shape parser (TravSHACL back end)** — `ShapeParser`, in `shape_parser.dfy`:
  - the configured target shape(s) are normalised into a mapping and a flat target list;
  - with removal on, a constraint of a target shape, or one referencing a target shape, is dropped when its predicate does not occur in the query, and the dropped paths are recorded per shape;
  - shape references are computed from the surviving constraints;
  - the dependency graph keeps reverse edges only into target shapes;
  - the branch logic of parsing a schema directory and replacing a target query.
- **Shape network (s2spy back end)** — `ShapeSchema`, in `shape_schema.dfy`: the id-to-shape lookup, the full dependency and reverse-dependency graph, and the guard on how validation may start.
- **Edge computation** — `Edges`, in `edges.dfy`: the walk over the shapes that both graph builders share. Shapes are walked in order. Every id starts with empty lists. A shape with references overwrites its dependency list. Its id is appended to the reverse list of every reference that is admitted. The two builders differ only in which references are admitted.
- **Validation-result transmitter** — `Transmitter`, in `transmitter.dfy`: a pure state machine. The statistics queue and the optional verdict queue are represented by the logs of what was put on them.
- **Driver fragments** — `Driver`, in `driver.dfy`:
  - the constraint statistics of the schema metrics;
  - the success verdicts of stopping, starting and restarting the four stage runners;
  - the choice of transmitter for a run.

Python exceptions that escape the modelled code become `Failure` values of the
`Result` type in `outcomes.dfy`:
- folding an empty target mapping;
- a missing removed-path list;
- a reverse edge to an unknown shape;
- asking validation not to start at the target shape.

Python truthiness is written out. A referenced shape counts only when it is present and non-empty. A supplied queue object is assumed truthy. So the transmitter's truthiness tests and its `!= None` test (ValidationResultTransmitter.py:19, 23, 30) all become one flag per queue, set exactly when the queue was supplied. A shape's references count only when the list is non-empty. Taking the shape of a constraints id drops its last three characters, giving the empty string for ids shorter than three.

Code the model cannot see becomes a parameter:
- the superclass parser's translation of a constraint, so a kept constraint is represented by its own schema object;
- the query's predicate set;
- the pruned network;
- the traversal order;
- the clock;
- the liveness the runners report.

The superclass `parse_constraints` is assumed to call `parse_constraint` once per constraint, in order (`ShapeParser.ParseEach`).

## Model

| member | source | states |
|---|---|---|
| ShapeParser.NewParser | shaclapi/reduction/travshacl/ReducedShapeParser.py:14-23 | A single target becomes the mapping `UNDEF -> [t]` and the list `[t]` (or `[]` for no target). A target mapping is stored unchanged. An empty target mapping fails. The target list equals the per-variable lists with absent shapes dropped, in mapping order. The parser starts with no current shape and no removed paths. |
| ShapeParser.TargetListOrder | shaclapi/reduction/travshacl/ReducedShapeParser.py:18 | Concatenating the lists and then dropping absent shapes equals dropping them per list and then concatenating, so the mapping's order is kept. |
| ShapeParser.TargetListMembers | shaclapi/reduction/travshacl/ReducedShapeParser.py:18 | A shape is in the target list iff it occurs, present, in some variable's list. |
| ShapeParser.ParseConstraint | shaclapi/reduction/travshacl/ReducedShapeParser.py:70-86 | With removal off, or with neither the current nor the referenced shape a target, the constraint is kept and nothing changes. A target-touching constraint is kept iff its path, with one leading `^` stripped, is a query predicate. Otherwise the result is no constraint, and the original path is appended to the current shape's removed list, leaving every other list alone. Recording fails only when the current shape has no removed list. |
| ShapeParser.ParseEach | shaclapi/reduction/travshacl/ReducedShapeParser.py:79-85 | Over a run of constraints, only the current shape's removed list changes. It grows by the dropped paths in order, and the present results are exactly the relevant constraints in order. |
| ShapeParser.ParseConstraints | shaclapi/reduction/travshacl/ReducedShapeParser.py:62-68 | The current shape becomes the id minus its last three characters, and its removed list is reset before parsing. The result is exactly the relevant constraints in order. That shape's removed list is exactly the dropped paths. Other shapes' lists are unchanged. |
| ShapeParser.KeptOrDropped | shaclapi/reduction/travshacl/ReducedShapeParser.py:79-85 | Every relevant constraint is among the kept ones. Every irrelevant constraint has its path among the dropped paths. |
| ShapeParser.KeptAndDroppedPartition | shaclapi/reduction/travshacl/ReducedShapeParser.py:68-85 | Kept constraints and dropped paths together account for every constraint exactly once. |
| ShapeParser.RefMapLastWins | shaclapi/reduction/travshacl/ReducedShapeParser.py:97-98 | The reference map's keys are exactly the shapes referenced by surviving constraints. Each key maps to the path of the last surviving constraint that references it. |
| ShapeParser.ShapeReferences | shaclapi/reduction/travshacl/ReducedShapeParser.py:88-98 | The keys are exactly the shapes referenced by constraints whose path is not in the current shape's removed list. For repeated references the last path wins. The call fails iff the current shape has no removed list and some constraint references a shape. |
| ShapeParser.ReferencesFromKept | shaclapi/reduction/travshacl/ReducedShapeParser.py:88-98 | Right after a shape's constraints are parsed, computing its references succeeds. Every reference is backed by a kept constraint with that shape and path, so removed constraints never appear in the references. |
| ShapeParser.SharedPathHidesReference | shaclapi/reduction/travshacl/ReducedShapeParser.py:84-98 | For example, in constraints id `A_c0` with target `T`, the constraint `ex:p -> T` is dropped and `ex:p -> S` is kept. Yet `A` gets no references, because the dropped constraint shares the kept one's path. |
| ShapeParser.ComputeReducedEdges | shaclapi/reduction/travshacl/ReducedShapeParser.py:100-121 | Both maps have exactly the shape ids as keys, and the dependencies are the full forward map. Each reverse list is the per-reference reading `Sources`: the shapes in order, each repeated once per admitted reference. A non-empty reverse list exists only with constraint removal on, and only under a target shape. The computation fails iff removal is on and some shape references a target shape that is not in the network. |
| ShapeParser.ReducedReverseMembership | shaclapi/reduction/travshacl/ReducedShapeParser.py:117-120 | Whatever the ids, `name` is in the reverse list of `ref` iff removal is on, `ref` is a target shape, and some shape named `name` references `ref`. |
| ShapeParser.ReducedReverseMatchesForward | shaclapi/reduction/travshacl/ReducedShapeParser.py:117-120 | Assume distinct ids. `name` is in the reverse list of `ref` iff `ref` is in the dependencies of `name`, removal is on, and `ref` is a target shape. Distinct ids are needed, as `ShapeParser.DuplicateIdsBreakInverse` shows. |
| ShapeParser.DuplicateIdsBreakInverse | shaclapi/reduction/travshacl/ReducedShapeParser.py:109-120 | Take shapes `A -> [T]`, `A -> [S]`, `T` and `S`, with `T` the target and removal on. `A` is in the reverse list of `T`, yet the dependencies of `A` are `[S]`: the second `A` overwrote them, while the reverse edge of the first stays. |
| ShapeParser.ParseShapesFromDir | shaclapi/reduction/travshacl/ReducedShapeParser.py:25-52 | The pruned network is used iff pruning is configured. Target queries are replaced iff this is configured and no variable is `UNDEF`. A node order is returned iff validation starts at the target shapes. The target list is passed through. |
| ShapeParser.SingleTargetKeepsTargetQuery | shaclapi/reduction/travshacl/ReducedShapeParser.py:17-47 | A single configured target shape never has its target query replaced, whatever the configuration says. |
| ShapeParser.ReplaceTargetQuery | shaclapi/reduction/travshacl/ReducedShapeParser.py:54-57 | The new target query is the shape's prefix block followed by the given query. The prefix-free query is the given query. |
| Edges.Forward | app/reduction/s2spy/ReducedShapeSchema.py:59-65 | Every shape id is a key. Its list is empty when no shape with that id has references. Otherwise it is the references of the last shape with that id that has any. |
| Edges.AssignLastWins | app/reduction/s2spy/ReducedShapeSchema.py:61-65 | Overwriting in order leaves each id with its initial list or with the references of the last shape of that name that has any. |
| Edges.ForwardOfDistinct | app/reduction/s2spy/ReducedShapeSchema.py:61-65 | With distinct ids, a shape's dependencies are its references, or the empty list when it has none. |
| Edges.Compute | app/reduction/s2spy/ReducedShapeSchema.py:57-68 | The walk fails iff an admitted reference names no shape. Otherwise both maps have the shape ids as keys, the dependency map is the forward map `Forward`, and each reverse list equals the per-reference reading `Sources`: the shapes in order, each repeated once per admitted reference. |
| Edges.ReverseIsSources | app/reduction/s2spy/ReducedShapeSchema.py:61-67 | The reverse lists accumulated shape by shape equal the per-reference reading. |
| Edges.SourcesCount | app/reduction/s2spy/ReducedShapeSchema.py:66-67 | `name` occurs in the reverse list of an admitted `ref` once per occurrence of `ref` among the references of shapes named `name`. |
| Edges.SourcesMembership | app/reduction/s2spy/ReducedShapeSchema.py:66-67 | `name` is in the reverse list of `ref` iff `ref` is admitted and some shape named `name` references it. |
| Edges.SourcesPrefix | app/reduction/s2spy/ReducedShapeSchema.py:61-67 | The entries contributed by the first `n` shapes form a prefix of the reverse list. |
| ShapeSchema.ShapesDict | app/reduction/s2spy/ReducedShapeSchema.py:17 | The keys are exactly the shape ids. Each id maps to the last shape with that id. |
| ShapeSchema.ShapesDictOfDistinct | app/reduction/s2spy/ReducedShapeSchema.py:17 | With distinct ids, every shape is found under its own id. |
| ShapeSchema.ComputeEdges | app/reduction/s2spy/ReducedShapeSchema.py:57-68 | Both maps have exactly the shape ids as keys, and the dependencies are the forward map. Every reference gets a reverse entry. The computation fails iff some reference names an unknown shape. |
| ShapeSchema.NewSchema | app/reduction/s2spy/ReducedShapeSchema.py:10-23 | The network is built iff the edge computation succeeds. It then stores the id lookup `ShapesDict`, and the dependency and reverse-dependency maps computed from the shapes. All three share one key set. |
| ShapeSchema.ReverseIsExactInverse | app/reduction/s2spy/ReducedShapeSchema.py:59-67 | With distinct ids, `name` occurs in the reverse list of `ref` exactly as often as `ref` occurs in the dependencies of `name`. |
| ShapeSchema.ReverseMembership | app/reduction/s2spy/ReducedShapeSchema.py:61-67 | `name` is in the reverse list of `ref` iff some shape named `name` references `ref`. This holds even with duplicate ids. |
| ShapeSchema.ReverseFollowsShapeOrder | app/reduction/s2spy/ReducedShapeSchema.py:61-67 | Reverse entries appear in the order of the shapes. |
| ShapeSchema.ValidateGetsExactInverse | app/reduction/s2spy/ReducedShapeSchema.py:20-35 | Take a freshly built network with distinct ids. Validating from the target shape succeeds, and hands the traversal a reverse map in which `name` occurs in the list of `ref` exactly as often as `ref` occurs in the dependencies of `name`. |
| ShapeSchema.Validate | app/reduction/s2spy/ReducedShapeSchema.py:25-51 | Starting elsewhere than the target shape fails as not implemented. Otherwise the traversal starts at the target shape with the network's two maps, and the report is empty. |
| Transmitter.New | app/reduction/ValidationResultTransmitter.py:11-14 | A fresh transmitter holds exactly the queues it was given, has sent nothing, has the flag unset, and is consistent. |
| Transmitter.Send | app/reduction/ValidationResultTransmitter.py:16-27 | The first-verdict message `first_validation_result` with the current time is put iff the flag is unset and a time queue exists. Afterwards the flag is set iff it was set before or a time queue exists. The verdict is put unchanged on the output queue iff there is one. Consistency is preserved. |
| Transmitter.SendAllKeepsConsistent | app/reduction/ValidationResultTransmitter.py:19-21 | Over any run, at most one first-verdict message is ever put, and once it is out the statistics log no longer changes. |
| Transmitter.FirstResultOnFirstSend | app/reduction/ValidationResultTransmitter.py:13-21 | From a fresh transmitter, the message is out iff a time queue exists and some verdict was sent. It then carries the time of the very first verdict. |
| Transmitter.NoTimeQueueNeverSent | app/reduction/ValidationResultTransmitter.py:13-20 | Without a time queue, the flag stays unset and no statistics message is put. |
| Transmitter.OutputIsCallLog | app/reduction/ValidationResultTransmitter.py:23-27 | The output queue receives exactly the sent verdicts, unchanged and in call order, when there is one. Otherwise it receives nothing. |
| Transmitter.StreamingDeliversEveryVerdict | app/reduction/ValidationResultTransmitter.py:23-30 | Streaming (`Transmitter.UseStreaming`, the model of `use_streaming`) is on iff an output queue was supplied, and then every verdict of a run reaches it. |
| Driver.MaxOr | api.py:370-382 | The maximum of a non-empty list is one of its elements and at least every element. For the empty list it is -1. |
| Driver.ConstraintStatistics | api.py:366-383 | The total is the number of constraints. Each kind's count is the number of its bounds. Each kind's maximum is the largest of its bounds, or -1 when absent. The two min-max maxima are taken independently. |
| Driver.MaxOnlyBoundsMembers | api.py:369-370 | A value is a max-only bound iff some constraint is a max-only constraint with that bound. |
| Driver.MaxOnlyLargest | api.py:369-380 | The max-only count is zero iff there is no max-only constraint, and the maximum is then -1. Otherwise the maximum is some max-only constraint's bound and at least every max-only bound. |
| Driver.StopProcesses | api.py:217-223 | As written, the stop succeeds iff validation and source contact are down and at least one of join and post-processing is down. |
| Driver.StopProcessesIntended | api.py:223 | The corrected stop verdict: success iff all four runners are down. |
| Driver.StopReportsSuccessWhileJoinAlive | api.py:223 | With only the join runner alive, the as-written stop reports success and the intended one does not. |
| Driver.StartProcesses | api.py:225-231 | The start succeeds iff all four runners report alive. |
| Driver.RestartWith | api.py:210-215 | Start is invoked iff the stop succeeded. The restart succeeds iff the stop succeeded and all four runners are alive afterwards. |
| Driver.RestartProcesses | api.py:210-223 | With the as-written stop, the restart succeeds iff the as-written stop succeeded and all four runners were alive after the start. So a successful restart guarantees only this about the state after the stop: validation and source contact were down, and join and post-processing were not both alive. |
| Driver.RestartWithIntendedStop | api.py:210-215 | With the intended stop, a restart succeeds iff every runner was down after the stop and up after the start. |
| Driver.SelectTransmitter | api.py:104-108 | The verdict queue is handed over, so streaming is on, iff the strategy is `queue`. The statistics queue is always supplied. |
| Driver.PipelinedRun | api.py:104-108 | Over a run, the verdict queue carries every verdict in order iff the strategy is `queue`. The statistics queue gets exactly one first-verdict message, stamped with the first verdict's time, as soon as any verdict is sent. |
| Driver.SingleProcessRunSendsNothing | api.py:186 | The single-process transmitter never streams and never puts a statistics message. |

## Findings

| source | as written | input that shows it | evidently intended | confidence | as-written member | corrected member |
|---|---|---|---|---|---|---|
| api.py:223 | `not (V or C or X and P)`. Python's `and` binds tighter than `or`, so this is `not (V or C or (X and P))`. | Validation and source contact dead, join alive, post-processing dead: the stop reports success although the join runner is still alive. | Success only when no runner is alive: `not (V or C or X or P)`. | high; not executed | Driver.StopProcesses (witness: Driver.StopReportsSuccessWhileJoinAlive) | Driver.StopProcessesIntended (used by Driver.RestartWithIntendedStop) |

The restart logic `Driver.RestartWith` takes the stop verdict as a parameter. So it composes with both stop verdicts. `Driver.RestartProcesses` is the as-written composition.

## Left out

- The superclass shape parsers (TravSHACL `ShapeParser`, s2spy parsing): they are not part of this model. A constraint's parsed form is represented by the schema object itself.
- The shape-network reduction (`Reduction.reduce_shape_network`, `node_order`, `replace_target_query` of the reducer): not part of this model. The pruned network and the node order enter `ShapeParser.ParseShapesFromDir` as parameters.
- The recomputation of a shape's derived target queries (ReducedShapeParser.py:57): not part of this model.
- `graphTraversal.traverse_graph`, `computeConstraintQueries` and the rule-based streaming validation run (ReducedShapeSchema.py:34-50): foreign code. `ShapeSchema.Validate` only returns the traversal's start and inputs.
- The query object's predicate extraction: the predicates are a parameter.
- `time.time()`: the clock reading is a parameter of `Transmitter.Send` and is modelled as an integer.
- Logging, printing, colours, `to_json` and the trivial accessor `shape_get_id`: no behaviour to model.
- Multiprocessing queues, pipes and runner processes: a queue is the log of the messages put on it. Runner liveness is a parameter. The sleeps in stop/start/restart are not modelled.
- The rest of `api.py` is I/O orchestration and remote queries, so it is left out:
  - `run_multiprocessing` apart from the transmitter choice;
  - `run_singleprocessing` apart from its transmitter;
  - `compute_experiment_metrices` apart from `constraint_statistics`, including its SPARQL `COUNT` checksums;
  - the printing loop over inter- and intra-shape constraints.
- `run.py`: the HTTP front end, outside the modelled core.
- ShapeParser.ParseConstraint: the missing-key failure does not carry the missing key (Python's `KeyError` names it).
- ShapeParser.ComputeReducedEdges: the unknown-shape failure does not name the offending reference.
- ShapeSchema.ComputeEdges: the unknown-shape failure does not name the offending reference.
- ShapeParser.ConstraintObj: the model assumes every constraint has a `path` entry, so a constraint without one is not represented. In the source, `parse_constraint` reads the path only in the removal branch (ReducedShapeParser.py:79-80), where a missing path raises `KeyError`. A path-less constraint that is kept passes through untouched (line 86). `shape_references` reads the path with `get` (lines 97-98), so such a constraint's reference would map to `None`. None of this is modelled.
- ShapeParser.TargetSpec: a non-dictionary target is taken to be a single shape or `None`, not an arbitrary value.

=== FILE: driver.dfy ===
/** The pure fragments of the run driver: the constraint statistics of the
    shape-schema metrics, the success verdicts of stopping, starting and
    restarting the four stage runners, and the choice of verdict transmitter
    for a run. Process control itself, queues, HTTP and file output are not
    part of this model; the liveness the runners report enters as parameters. */
module Driver {
  import Transmitter

  // ------------------------------------------------------- constraint statistics

  /** A constraint as the statistics see it: which of the three counted
      classes it belongs to, with its bounds, or any other class. */
  datatype Constraint =
    | MaxOnly(max: int)
    | MinOnly(min: int)
    | MinMax(min: int, max: int)
    | OtherKind

  /** How many constraints of one kind there are and their largest bound. */
  datatype KindStats = KindStats(count: nat, largest: int)

  /** For min-max constraints: the count, the largest lower bound and the
      largest upper bound. */
  datatype MinMaxStats = MinMaxStats(count: nat, largestMin: int, largestMax: int)

  datatype ConstraintStats = ConstraintStats(
    total: nat,
    maxOnly: KindStats,
    minOnly: KindStats,
    minMax: MinMaxStats)

  /** The largest value of a list, or -1 for the empty list. */
  function MaxOr(xs: seq<int>): (r: int)
    ensures xs == [] ==> r == -1
    ensures xs != [] ==> r in xs && forall i :: 0 <= i < |xs| ==> xs[i] <= r
    decreases |xs|
  {
    if xs == [] then -1
    else if |xs| == 1 then xs[0]
    else
      var m := MaxOr(xs[..|xs| - 1]);
      var x := xs[|xs| - 1];
      assert forall i :: 0 <= i < |xs| - 1 ==> xs[..|xs| - 1][i] == xs[i];
      if x > m then x else m
  }

  /** The upper bounds of the max-only constraints, in order. */
  function MaxOnlyBounds(cs: seq<Constraint>): seq<int>
    decreases |cs|
  {
    if cs == [] then []
    else
      var c := cs[|cs| - 1];
      MaxOnlyBounds(cs[..|cs| - 1]) + (if c.MaxOnly? then [c.max] else [])
  }

  /** The lower bounds of the min-only constraints, in order. */
  function MinOnlyBounds(cs: seq<Constraint>): seq<int>
    decreases |cs|
  {
    if cs == [] then []
    else
      var c := cs[|cs| - 1];
      MinOnlyBounds(cs[..|cs| - 1]) + (if c.MinOnly? then [c.min] else [])
  }

  /** The lower bounds of the min-max constraints, in order. */
  function MinMaxLowerBounds(cs: seq<Constraint>): seq<int>
    decreases |cs|
  {
    if cs == [] then []
    else
      var c := cs[|cs| - 1];
      MinMaxLowerBounds(cs[..|cs| - 1]) + (if c.MinMax? then [c.min] else [])
  }

  /** The upper bounds of the min-max constraints, in order. */
  function MinMaxUpperBounds(cs: seq<Constraint>): seq<int>
    decreases |cs|
  {
    if cs == [] then []
    else
      var c := cs[|cs| - 1];
      MinMaxUpperBounds(cs[..|cs| - 1]) + (if c.MinMax? then [c.max] else [])
  }

  /** Adds one bound to the running statistics of a kind. */
  function Add(k: KindStats, x: int): KindStats {
    KindStats(k.count + 1, if k.count == 0 || x > k.largest then x else k.largest)
  }

  /** Running statistics that summarise a list keep summarising it when one
      bound is added. */
  lemma AddSummarises(k: KindStats, xs: seq<int>, x: int)
    requires k == KindStats(|xs|, MaxOr(xs))
    ensures Add(k, x) == KindStats(|xs + [x]|, MaxOr(xs + [x]))
  {
  }

  /** The bounds lists of a prefix grow by the bounds of the next constraint. */
  lemma BoundsSnoc(cs: seq<Constraint>, i: int)
    requires 0 <= i < |cs|
    ensures MaxOnlyBounds(cs[..i + 1]) == if cs[i].MaxOnly? then MaxOnlyBounds(cs[..i]) + [cs[i].max] else MaxOnlyBounds(cs[..i])
    ensures MinOnlyBounds(cs[..i + 1]) == if cs[i].MinOnly? then MinOnlyBounds(cs[..i]) + [cs[i].min] else MinOnlyBounds(cs[..i])
    ensures MinMaxLowerBounds(cs[..i + 1]) == if cs[i].MinMax? then MinMaxLowerBounds(cs[..i]) + [cs[i].min] else MinMaxLowerBounds(cs[..i])
    ensures MinMaxUpperBounds(cs[..i + 1]) == if cs[i].MinMax? then MinMaxUpperBounds(cs[..i]) + [cs[i].max] else MinMaxUpperBounds(cs[..i])
  {
    assert cs[..i + 1][..i] == cs[..i];
  }

  /** The statistics kept while scanning: one running summary per bounds list. */
  datatype Running = Running(maxOnly: KindStats, minOnly: KindStats, lower: KindStats, upper: KindStats)

  /** What the running statistics must equal after scanning `cs`. */
  function Summary(cs: seq<Constraint>): Running {
    Running(KindStats(|MaxOnlyBounds(cs)|, MaxOr(MaxOnlyBounds(cs))),
            KindStats(|MinOnlyBounds(cs)|, MaxOr(MinOnlyBounds(cs))),
            KindStats(|MinMaxLowerBounds(cs)|, MaxOr(MinMaxLowerBounds(cs))),
            KindStats(|MinMaxUpperBounds(cs)|, MaxOr(MinMaxUpperBounds(cs))))
  }

  /** Scans one constraint. */
  function Scan(r: Running, c: Constraint): Running {
    match c
    case MaxOnly(m) => r.(maxOnly := Add(r.maxOnly, m))
    case MinOnly(m) => r.(minOnly := Add(r.minOnly, m))
    case MinMax(lo, hi) => r.(lower := Add(r.lower, lo), upper := Add(r.upper, hi))
    case OtherKind => r
  }

  lemma ScanSummarises(cs: seq<Constraint>, i: int)
    requires 0 <= i < |cs|
    ensures Scan(Summary(cs[..i]), cs[i]) == Summary(cs[..i + 1])
  {
    BoundsSnoc(cs, i);
    var r := Summary(cs[..i]);
    match cs[i]
    case MaxOnly(m) => AddSummarises(r.maxOnly, MaxOnlyBounds(cs[..i]), m);
    case MinOnly(m) => AddSummarises(r.minOnly, MinOnlyBounds(cs[..i]), m);
    case MinMax(lo, hi) =>
      AddSummarises(r.lower, MinMaxLowerBounds(cs[..i]), lo);
      AddSummarises(r.upper, MinMaxUpperBounds(cs[..i]), hi);
    case OtherKind =>
  }

  /** Both bounds lists of the min-max constraints have one entry per such
      constraint. */
  lemma {:induction false} MinMaxBoundsAligned(cs: seq<Constraint>)
    ensures |MinMaxLowerBounds(cs)| == |MinMaxUpperBounds(cs)|
    decreases |cs|
  {
    if cs != [] {
      MinMaxBoundsAligned(cs[..|cs| - 1]);
    }
  }

  /** Counts constraints per kind and takes, per kind, the largest bound
      (-1 when the kind is absent), in one pass. The two bounds of the
      min-max constraints are maximised independently. */
  method ConstraintStatistics(cs: seq<Constraint>) returns (s: ConstraintStats)
    ensures s.total == |cs|
    ensures s.maxOnly == KindStats(|MaxOnlyBounds(cs)|, MaxOr(MaxOnlyBounds(cs)))
    ensures s.minOnly == KindStats(|MinOnlyBounds(cs)|, MaxOr(MinOnlyBounds(cs)))
    ensures s.minMax == MinMaxStats(|MinMaxLowerBounds(cs)|, MaxOr(MinMaxLowerBounds(cs)), MaxOr(MinMaxUpperBounds(cs)))
  {
    var r := Running(KindStats(0, -1), KindStats(0, -1), KindStats(0, -1), KindStats(0, -1));
    assert cs[..0] == [];
    for i := 0 to |cs|
      invariant r == Summary(cs[..i])
    {
      ScanSummarises(cs, i);
      r := Scan(r, cs[i]);
    }
    assert cs[..|cs|] == cs;
    MinMaxBoundsAligned(cs);
    s := ConstraintStats(|cs|, r.maxOnly, r.minOnly, MinMaxStats(r.lower.count, r.lower.largest, r.upper.largest));
  }

  /** A kind's count is the number of constraints of that kind, and its
      bounds list holds exactly their bounds. */
  lemma {:induction false} MaxOnlyBoundsMembers(cs: seq<Constraint>, x: int)
    ensures x in MaxOnlyBounds(cs) <==> exists i :: 0 <= i < |cs| && cs[i] == MaxOnly(x)
    decreases |cs|
  {
    if cs != [] {
      var prefix := cs[..|cs| - 1];
      MaxOnlyBoundsMembers(prefix, x);
      if exists i :: 0 <= i < |cs| && cs[i] == MaxOnly(x) {
        var i :| 0 <= i < |cs| && cs[i] == MaxOnly(x);
        if i < |prefix| {
          assert prefix[i] == cs[i];
        }
      }
    }
  }

  /** The reported maximum of the max-only constraints is -1 when there are
      none, and otherwise the bound of one of them and at least every other
      one's bound. */
  lemma MaxOnlyLargest(cs: seq<Constraint>)
    ensures |MaxOnlyBounds(cs)| == 0 <==> forall i :: 0 <= i < |cs| ==> !cs[i].MaxOnly?
    ensures |MaxOnlyBounds(cs)| == 0 ==> MaxOr(MaxOnlyBounds(cs)) == -1
    ensures |MaxOnlyBounds(cs)| > 0 ==> exists i :: 0 <= i < |cs| && cs[i] == MaxOnly(MaxOr(MaxOnlyBounds(cs)))
    ensures forall i :: 0 <= i < |cs| && cs[i].MaxOnly? ==> cs[i].max <= MaxOr(MaxOnlyBounds(cs))
  {
    var bs := MaxOnlyBounds(cs);
    forall i | 0 <= i < |cs| && cs[i].MaxOnly?
      ensures cs[i].max <= MaxOr(bs) && bs != []
    {
      MaxOnlyBoundsMembers(cs, cs[i].max);
    }
    if bs != [] {
      MaxOnlyBoundsMembers(cs, MaxOr(bs));
      assert exists i :: 0 <= i < |cs| && cs[i].MaxOnly?;
    }
  }

  // ------------------------------------------------------------ process control

  /** Whether each of the four stage runners reports its process alive. */
  datatype Liveness = Liveness(validation: bool, contactSource: bool, xjoin: bool, postProcessing: bool)

  predicate AllAlive(l: Liveness) {
    l.validation && l.contactSource && l.xjoin && l.postProcessing
  }

  predicate AllDead(l: Liveness) {
    !l.validation && !l.contactSource && !l.xjoin && !l.postProcessing
  }

  /** The verdict of stopping all runners, as written: the conjunction of the
      last two liveness probes binds tighter than the disjunctions, so the
      stop counts as successful when validation and source contact are down
      and at least one of the join and post-processing is down. */
  function StopProcesses(afterStop: Liveness): (ok: bool)
    ensures ok <==> !afterStop.validation && !afterStop.contactSource
                    && (!afterStop.xjoin || !afterStop.postProcessing)
    ensures AllDead(afterStop) ==> ok
  {
    !(afterStop.validation || afterStop.contactSource || (afterStop.xjoin && afterStop.postProcessing))
  }

  /** The evidently intended stop verdict: successful exactly when no runner
      is alive any more. */
  function StopProcessesIntended(afterStop: Liveness): (ok: bool)
    ensures ok <==> AllDead(afterStop)
  {
    !(afterStop.validation || afterStop.contactSource || afterStop.xjoin || afterStop.postProcessing)
  }

  /** The stop verdict as written reports success while the join runner is
      still alive. */
  lemma StopReportsSuccessWhileJoinAlive()
    ensures var l := Liveness(false, false, true, false);
            StopProcesses(l) && l.xjoin && !AllDead(l) && !StopProcessesIntended(l)
  {
  }

  /** The verdict of starting all runners: successful exactly when all four
      report alive. */
  function StartProcesses(afterStart: Liveness): (ok: bool)
    ensures ok <==> AllAlive(afterStart)
  {
    afterStart.validation && afterStart.contactSource && afterStart.xjoin && afterStart.postProcessing
  }

  /** What a restart did: whether the runners were started again, and the
      verdict returned. */
  datatype RestartOutcome = RestartOutcome(startInvoked: bool, done: bool)

  /** Restarting given the stop verdict: start is only invoked when the stop
      reported success, and the restart succeeds when both did. */
  function RestartWith(stopped: bool, afterStart: Liveness): (r: RestartOutcome)
    ensures r.startInvoked <==> stopped
    ensures r.done <==> stopped && AllAlive(afterStart)
  {
    if stopped then RestartOutcome(true, StartProcesses(afterStart)) else RestartOutcome(false, false)
  }

  /** Restarting as written, with the stop verdict as written. */
  function RestartProcesses(afterStop: Liveness, afterStart: Liveness): (r: RestartOutcome)
    ensures r.startInvoked <==> StopProcesses(afterStop)
    ensures r.done <==> StopProcesses(afterStop) && AllAlive(afterStart)
    ensures r.done ==> (!afterStop.validation && !afterStop.contactSource
                        && !(afterStop.xjoin && afterStop.postProcessing) && AllAlive(afterStart))
  {
    RestartWith(StopProcesses(afterStop), afterStart)
  }

  /** With the intended stop verdict, a successful restart means every runner
      was down after the stop and up after the start. */
  lemma RestartWithIntendedStop(afterStop: Liveness, afterStart: Liveness)
    ensures RestartWith(StopProcessesIntended(afterStop), afterStart).done
        <==> AllDead(afterStop) && AllAlive(afterStart)
  {
  }

  // ------------------------------------------------------- transmitter choice

  /** The transmitter of a pipelined run: the validation verdict queue is
      only handed over with the "queue" strategy; the statistics queue always. */
  function SelectTransmitter(transmissionStrategy: string): (t: Transmitter.Transmitter)
    ensures Transmitter.UseStreaming(t) <==> transmissionStrategy == "queue"
    ensures t.hasTimeQueue
    ensures Transmitter.Consistent(t) && t.output == [] && t.stats == [] && !t.firstResultSent
  {
    if transmissionStrategy == "queue" then Transmitter.New(true, true) else Transmitter.New(false, true)
  }

  /** Over a whole pipelined run, the verdict queue carries every verdict in
      call order exactly with the "queue" strategy, and the statistics queue
      receives the first-verdict message once as soon as any verdict was sent. */
  lemma PipelinedRun(transmissionStrategy: string, vs: seq<Transmitter.Verdict>, clock: seq<Transmitter.Timestamp>)
    requires |clock| == |vs|
    ensures var t := Transmitter.SendAll(SelectTransmitter(transmissionStrategy), vs, clock);
            t.output == (if transmissionStrategy == "queue" then vs else [])
            && t.stats == (if vs == [] then [] else [Transmitter.StatsMsg(Transmitter.FirstValidationResult, clock[0])])
  {
    var hasOutput := transmissionStrategy == "queue";
    Transmitter.StreamingDeliversEveryVerdict(hasOutput, true, vs, clock);
    Transmitter.FirstResultOnFirstSend(hasOutput, true, vs, clock);
  }

  /** The transmitter of a single-process run has neither queue: nothing is
      streamed and no statistics message is ever put. */
  lemma SingleProcessRunSendsNothing(vs: seq<Transmitter.Verdict>, clock: seq<Transmitter.Timestamp>)
    requires |clock| == |vs|
    ensures !Transmitter.UseStreaming(Transmitter.New(false, false))
    ensures var t := Transmitter.SendAll(Transmitter.New(false, false), vs, clock);
            t.output == [] && t.stats == []
  {
    Transmitter.StreamingDeliversEveryVerdict(false, false, vs, clock);
    Transmitter.NoTimeQueueNeverSent(false, vs, clock);
  }
}

=== FILE: edges.dfy ===
/** The dependency and reverse-dependency maps of a shape network.

    Both edge computations of the system walk the shapes in order, start every
    shape id with an empty list, replace a shape's dependency list by its
    references when it has any, and append the shape's id to the reverse list
    of each reference it admits. They differ only in which references are
    admitted, which is the `Admit` parameter here. */
module Edges {
  import opened Outcomes

  type ShapeId = string

  /** A shape as the edge computation sees it: its id and the ids of the
      shapes it references, in the order the shape reports them. */
  datatype Node = Node(id: ShapeId, refs: seq<ShapeId>)

  /** Which references receive a reverse edge: all of them, or only those
      pointing into a given set of shapes. */
  datatype Admit = All | Only(into: set<ShapeId>)

  predicate Admits(a: Admit, ref: ShapeId) {
    match a
    case All => true
    case Only(into) => ref in into
  }

  /** The ids of the shapes, i.e. the key set of both maps. */
  function Ids(nodes: seq<Node>): (r: set<ShapeId>)
    ensures forall i :: 0 <= i < |nodes| ==> nodes[i].id in r
    ensures forall k :: k in r ==> exists i :: 0 <= i < |nodes| && nodes[i].id == k
  {
    set i | 0 <= i < |nodes| :: nodes[i].id
  }

  /** No two shapes share an id. */
  predicate DistinctIds(nodes: seq<Node>) {
    forall i, j :: 0 <= i < j < |nodes| ==> nodes[i].id != nodes[j].id
  }

  /** Some admitted reference names no shape: appending to its reverse list
      raises a missing-key error. */
  predicate Dangling(nodes: seq<Node>, a: Admit) {
    exists i, k :: 0 <= i < |nodes| && 0 <= k < |nodes[i].refs|
      && Admits(a, nodes[i].refs[k]) && nodes[i].refs[k] !in Ids(nodes)
  }

  /** Every admitted reference of `nodes` is a key of `m`. */
  predicate Closed(m: map<ShapeId, seq<ShapeId>>, nodes: seq<Node>, a: Admit) {
    forall i, k :: 0 <= i < |nodes| && 0 <= k < |nodes[i].refs| && Admits(a, nodes[i].refs[k])
      ==> nodes[i].refs[k] in m
  }

  /** The map from every given key to the empty list. */
  function EmptyLists(keys: set<ShapeId>): (m: map<ShapeId, seq<ShapeId>>)
    ensures m.Keys == keys
    ensures forall k :: k in m ==> m[k] == []
  {
    map k | k in keys :: []
  }

  // ---------------------------------------------------------------- forward

  /** No shape after position `i` named `k` has references. */
  predicate NoRefsAfter(nodes: seq<Node>, k: ShapeId, i: int) {
    forall j :: 0 <= j < |nodes| && i < j && nodes[j].id == k ==> nodes[j].refs == []
  }

  /** Shape `i` is the last shape named `k` with references, and `v` is them. */
  predicate LastRefsAt(nodes: seq<Node>, k: ShapeId, v: seq<ShapeId>, i: int) {
    0 <= i < |nodes| && nodes[i].id == k && nodes[i].refs != [] && v == nodes[i].refs
    && NoRefsAfter(nodes, k, i)
  }

  /** Dropping the last shape can only shrink the id set. */
  lemma IdsOfPrefix(nodes: seq<Node>)
    requires nodes != []
    ensures Ids(nodes[..|nodes| - 1]) <= Ids(nodes)
  {
  }

  /** Overwrites the dependency list of every shape with non-empty references,
      in order; a later shape with the same id wins. */
  function Assign(deps: map<ShapeId, seq<ShapeId>>, nodes: seq<Node>): (r: map<ShapeId, seq<ShapeId>>)
    requires Ids(nodes) <= deps.Keys
    ensures r.Keys == deps.Keys
    decreases |nodes|
  {
    if nodes == [] then deps
    else
      var prefix := nodes[..|nodes| - 1];
      var s := nodes[|nodes| - 1];
      IdsOfPrefix(nodes);
      var d := Assign(deps, prefix);
      if s.refs != [] then d[s.id := s.refs] else d
  }

  /** A shape at the end that is not named `k` or has no references does
      not disturb `NoRefsAfter`. */
  lemma NoRefsAfterExtend(nodes: seq<Node>, k: ShapeId, i: int)
    requires nodes != []
    requires nodes[|nodes| - 1].refs == [] || nodes[|nodes| - 1].id != k
    requires NoRefsAfter(nodes[..|nodes| - 1], k, i)
    ensures NoRefsAfter(nodes, k, i)
  {
  }

  /** Last writer wins: each key keeps its initial list when no shape of that
      name has references, and otherwise holds the references of the last
      shape of that name that has any. The index of that shape is returned,
      or -1 when there is none. */
  lemma {:induction false} AssignLastWins(deps: map<ShapeId, seq<ShapeId>>, nodes: seq<Node>, k: ShapeId)
    returns (i: int)
    requires Ids(nodes) <= deps.Keys
    requires k in deps
    ensures i == -1 || LastRefsAt(nodes, k, Assign(deps, nodes)[k], i)
    ensures i == -1 ==> Assign(deps, nodes)[k] == deps[k] && NoRefsAfter(nodes, k, -1)
    decreases |nodes|
  {
    if nodes == [] {
      i := -1;
    } else {
      var prefix := nodes[..|nodes| - 1];
      var s := nodes[|nodes| - 1];
      IdsOfPrefix(nodes);
      var d := Assign(deps, prefix);
      var r := Assign(deps, nodes);
      assert r == if s.refs != [] then d[s.id := s.refs] else d;
      var j := AssignLastWins(deps, prefix, k);
      if s.refs != [] && s.id == k {
        i := |nodes| - 1;
        assert r[k] == s.refs;
      } else {
        i := j;
        assert r[k] == d[k];
        NoRefsAfterExtend(nodes, k, j);
      }
    }
  }

  /** The dependency map: every shape id, mapped to the references of the last
      shape with that id that has any, or to the empty list. */
  function Forward(nodes: seq<Node>): (deps: map<ShapeId, seq<ShapeId>>)
    ensures deps.Keys == Ids(nodes)
    ensures forall k :: k in deps ==>
              ((deps[k] == [] && NoRefsAfter(nodes, k, -1)) || exists i :: LastRefsAt(nodes, k, deps[k], i))
  {
    var init := EmptyLists(Ids(nodes));
    var deps := Assign(init, nodes);
    assert forall k :: k in deps ==>
             ((deps[k] == [] && NoRefsAfter(nodes, k, -1)) || exists i :: LastRefsAt(nodes, k, deps[k], i)) by {
      forall k | k in deps
        ensures (deps[k] == [] && NoRefsAfter(nodes, k, -1)) || exists i :: LastRefsAt(nodes, k, deps[k], i)
      {
        var i := AssignLastWins(init, nodes, k);
        if i != -1 {
          assert LastRefsAt(nodes, k, deps[k], i);
        }
      }
    }
    deps
  }

  /** With distinct ids, a shape's dependency list is exactly its references
      (the empty list when it has none). */
  lemma ForwardOfDistinct(nodes: seq<Node>, i: int)
    requires DistinctIds(nodes)
    requires 0 <= i < |nodes|
    ensures Forward(nodes)[nodes[i].id] == nodes[i].refs
  {
  }

  // ---------------------------------------------------------------- reverse

  /** `n` copies of `x`. */
  function Repeat(x: ShapeId, n: nat): (r: seq<ShapeId>)
    ensures |r| == n
    ensures forall i :: 0 <= i < n ==> r[i] == x
  {
    if n == 0 then [] else Repeat(x, n - 1) + [x]
  }

  /** Appends `name` to the reverse list of each admitted reference in `refs`,
      once per occurrence, in order. */
  function AddEdges(m: map<ShapeId, seq<ShapeId>>, name: ShapeId, refs: seq<ShapeId>, a: Admit): (r: map<ShapeId, seq<ShapeId>>)
    requires forall k :: 0 <= k < |refs| && Admits(a, refs[k]) ==> refs[k] in m
    ensures r.Keys == m.Keys
    decreases |refs|
  {
    if refs == [] then m
    else
      var ref := refs[|refs| - 1];
      var m' := AddEdges(m, name, refs[..|refs| - 1], a);
      if Admits(a, ref) then m'[ref := m'[ref] + [name]] else m'
  }

  /** Runs `AddEdges` for each shape in order. */
  function AddAll(m: map<ShapeId, seq<ShapeId>>, nodes: seq<Node>, a: Admit): (r: map<ShapeId, seq<ShapeId>>)
    requires Closed(m, nodes, a)
    ensures r.Keys == m.Keys
    decreases |nodes|
  {
    if nodes == [] then m
    else
      var s := nodes[|nodes| - 1];
      var m' := AddAll(m, nodes[..|nodes| - 1], a);
      AddEdges(m', s.id, s.refs, a)
  }

  /** The reverse-dependency map: every shape id, mapped to the ids of the
      shapes that reference it through an admitted reference. */
  function Reverse(nodes: seq<Node>, a: Admit): (rev: map<ShapeId, seq<ShapeId>>)
    requires !Dangling(nodes, a)
    ensures rev.Keys == Ids(nodes)
  {
    AddAll(EmptyLists(Ids(nodes)), nodes, a)
  }

  /** The reference reading of one reverse list: going through the shapes in
      order, each contributes its id once per occurrence of `ref` among its
      references, provided `ref` is admitted. */
  function Sources(nodes: seq<Node>, a: Admit, ref: ShapeId): seq<ShapeId>
    decreases |nodes|
  {
    if nodes == [] || !Admits(a, ref) then []
    else
      var s := nodes[|nodes| - 1];
      Sources(nodes[..|nodes| - 1], a, ref) + Repeat(s.id, multiset(s.refs)[ref])
  }

  /** The two maps of one edge computation, or a missing-key failure when an
      admitted reference names no shape. */
  function Compute(nodes: seq<Node>, a: Admit): (r: Result<(map<ShapeId, seq<ShapeId>>, map<ShapeId, seq<ShapeId>>), ()>)
    ensures r.Failure? <==> Dangling(nodes, a)
    ensures r.Success? ==> r.value.0.Keys == Ids(nodes) && r.value.1.Keys == Ids(nodes)
    ensures r.Success? ==> r.value.0 == Forward(nodes)
    ensures r.Success? ==> forall ref :: ref in r.value.1 ==> r.value.1[ref] == Sources(nodes, a, ref)
  {
    if Dangling(nodes, a) then Failure(())
    else
      var rev := Reverse(nodes, a);
      ReverseIsSources(nodes, a);
      Success((Forward(nodes), rev))
  }

  lemma {:induction false} RepeatSucc(x: ShapeId, n: nat)
    ensures Repeat(x, n) + [x] == Repeat(x, n + 1)
  {
  }

  /** One shape's appends extend each reverse list by its id, once per
      occurrence of that key among the admitted references. */
  lemma {:induction false} AddEdgesAppends(m: map<ShapeId, seq<ShapeId>>, name: ShapeId, refs: seq<ShapeId>, a: Admit, key: ShapeId)
    requires forall k :: 0 <= k < |refs| && Admits(a, refs[k]) ==> refs[k] in m
    requires key in m
    ensures AddEdges(m, name, refs, a)[key]
         == m[key] + (if Admits(a, key) then Repeat(name, multiset(refs)[key]) else [])
    decreases |refs|
  {
    if refs != [] {
      var prefix := refs[..|refs| - 1];
      var ref := refs[|refs| - 1];
      assert refs == prefix + [ref];
      assert multiset(refs) == multiset(prefix) + multiset{ref};
      AddEdgesAppends(m, name, prefix, a, key);
      if Admits(a, key) && ref == key {
        RepeatSucc(name, multiset(prefix)[key]);
      }
    }
  }

  lemma {:induction false} AddAllAppends(m: map<ShapeId, seq<ShapeId>>, nodes: seq<Node>, a: Admit, key: ShapeId)
    requires Closed(m, nodes, a)
    requires key in m
    ensures AddAll(m, nodes, a)[key] == m[key] + Sources(nodes, a, key)
    decreases |nodes|
  {
    if nodes != [] {
      var prefix := nodes[..|nodes| - 1];
      var s := nodes[|nodes| - 1];
      AddAllAppends(m, prefix, a, key);
      var m' := AddAll(m, prefix, a);
      AddEdgesAppends(m', s.id, s.refs, a, key);
      if !Admits(a, key) {
        assert Sources(nodes, a, key) == [];
      }
    }
  }

  /** The accumulated reverse map agrees with the per-key reading `Sources`. */
  lemma ReverseIsSources(nodes: seq<Node>, a: Admit)
    requires !Dangling(nodes, a)
    ensures forall ref :: ref in Reverse(nodes, a) ==> Reverse(nodes, a)[ref] == Sources(nodes, a, ref)
  {
    forall ref | ref in Reverse(nodes, a)
      ensures Reverse(nodes, a)[ref] == Sources(nodes, a, ref)
    {
      AddAllAppends(EmptyLists(Ids(nodes)), nodes, a, ref);
    }
  }

  // ------------------------------------------------------ properties of Sources

  /** Number of times `ref` is referenced, over all shapes whose id is `name`. */
  function RefCount(nodes: seq<Node>, name: ShapeId, ref: ShapeId): nat
    decreases |nodes|
  {
    if nodes == [] then 0
    else
      var s := nodes[|nodes| - 1];
      RefCount(nodes[..|nodes| - 1], name, ref) + (if s.id == name then multiset(s.refs)[ref] else 0)
  }

  lemma {:induction false} RepeatCount(x: ShapeId, n: nat, y: ShapeId)
    ensures multiset(Repeat(x, n))[y] == (if x == y then n else 0)
  {
    if n > 0 {
      RepeatCount(x, n - 1, y);
    }
  }

  /** Multiplicity: `name` occurs in the reverse list of an admitted `ref`
      once for every occurrence of `ref` among the references of a shape
      named `name`. */
  lemma {:induction false} SourcesCount(nodes: seq<Node>, a: Admit, ref: ShapeId, name: ShapeId)
    ensures multiset(Sources(nodes, a, ref))[name] == (if Admits(a, ref) then RefCount(nodes, name, ref) else 0)
    decreases |nodes|
  {
    if nodes != [] && Admits(a, ref) {
      var s := nodes[|nodes| - 1];
      SourcesCount(nodes[..|nodes| - 1], a, ref, name);
      RepeatCount(s.id, multiset(s.refs)[ref], name);
    }
  }

  /** With distinct ids, the shapes named `name` reduce to the single one. */
  lemma {:induction false} RefCountOfDistinct(nodes: seq<Node>, i: int, ref: ShapeId)
    requires DistinctIds(nodes)
    requires 0 <= i < |nodes|
    ensures RefCount(nodes, nodes[i].id, ref) == multiset(nodes[i].refs)[ref]
    decreases |nodes|
  {
    var prefix := nodes[..|nodes| - 1];
    if i == |nodes| - 1 {
      RefCountAbsent(prefix, nodes[i].id, ref);
    } else {
      RefCountOfDistinct(prefix, i, ref);
    }
  }

  lemma {:induction false} RefCountAbsent(nodes: seq<Node>, name: ShapeId, ref: ShapeId)
    requires forall j :: 0 <= j < |nodes| ==> nodes[j].id != name
    ensures RefCount(nodes, name, ref) == 0
    decreases |nodes|
  {
    if nodes != [] {
      RefCountAbsent(nodes[..|nodes| - 1], name, ref);
    }
  }

  /** Membership: `name` is in the reverse list of `ref` exactly when `ref` is
      admitted and some shape named `name` references `ref`. */
  lemma {:induction false} SourcesMembership(nodes: seq<Node>, a: Admit, ref: ShapeId, name: ShapeId)
    ensures name in Sources(nodes, a, ref)
        <==> Admits(a, ref) && exists i :: 0 <= i < |nodes| && nodes[i].id == name && ref in nodes[i].refs
    decreases |nodes|
  {
    if nodes != [] && Admits(a, ref) {
      var prefix := nodes[..|nodes| - 1];
      var s := nodes[|nodes| - 1];
      SourcesMembership(prefix, a, ref, name);
      var n := multiset(s.refs)[ref];
      assert name in Repeat(s.id, n) <==> s.id == name && n > 0 by {
        if name in Repeat(s.id, n) {
          var k :| 0 <= k < n && Repeat(s.id, n)[k] == name;
        }
        if s.id == name && n > 0 {
          assert Repeat(s.id, n)[0] == name;
        }
      }
      if exists i :: 0 <= i < |nodes| && nodes[i].id == name && ref in nodes[i].refs {
        var i :| 0 <= i < |nodes| && nodes[i].id == name && ref in nodes[i].refs;
        if i < |prefix| {
          assert prefix[i] == nodes[i];
        }
      }
    }
  }

  /** Iteration order: when shape `i` and a later shape `j` both reference an
      admitted `ref`, every entry contributed by `i` precedes every entry
      contributed by `j`; concretely the list splits at the contribution of
      the shapes up to `i`. */
  lemma {:induction false} SourcesPrefix(nodes: seq<Node>, a: Admit, ref: ShapeId, n: nat)
    requires n <= |nodes|
    ensures Sources(nodes[..n], a, ref) <= Sources(nodes, a, ref)
    decreases |nodes|
  {
    if n < |nodes| {
      var prefix := nodes[..|nodes| - 1];
      assert prefix[..n] == nodes[..n];
      SourcesPrefix(prefix, a, ref, n);
    } else {
      assert nodes[..n] == nodes;
    }
  }
}

=== FILE: outcomes.dfy ===
/** Failure-compatible wrappers shared by the model: Python's `None` becomes
    `Option.None`, and a Python exception that the source lets escape becomes
    `Result.Failure`. */
module Outcomes {

  /** An optional value, standing for a Python value that may be `None`. */
  datatype Option<+T> = None | Some(value: T)

  /** The outcome of an operation that either returns a value or raises. */
  datatype Result<+R, +E> = Success(value: R) | Failure(error: E)

  /** The present values of a sequence of optionals, in their original order
      (the list comprehension `[x for x in xs if x is not None]`). */
  function Present<T(!new)>(xs: seq<Option<T>>): (r: seq<T>)
    ensures |r| <= |xs|
    ensures forall y :: y in r <==> Some(y) in xs
  {
    if xs == [] then []
    else
      var last := xs[|xs| - 1];
      assert xs == xs[..|xs| - 1] + [last];
      Present(xs[..|xs| - 1]) + (if last.Some? then [last.value] else [])
  }

  /** Dropping the absent values distributes over concatenation, so the
      relative order of the present values is kept. */
  lemma {:induction false} PresentAppend<T(!new)>(a: seq<Option<T>>, b: seq<Option<T>>)
    ensures Present(a + b) == Present(a) + Present(b)
    decreases |b|
  {
    if b == [] {
      assert a + b == a;
    } else {
      var b' := b[..|b| - 1];
      assert (a + b)[..|a + b| - 1] == a + b';
      assert (a + b)[|a + b| - 1] == b[|b| - 1];
      PresentAppend(a, b');
    }
  }
}

=== FILE: shape_parser.dfy ===
/** The query-aware shape parser of the TravSHACL back end.

    While the shape schema is parsed, constraints of target shapes whose
    predicate does not occur in the query are dropped, the dropped paths are
    remembered per shape, references are computed from the surviving
    constraints, and the dependency graph is built with reverse edges only into
    target shapes. The superclass parser, the shape-network reduction and the
    query object are not part of this model: what they contribute enters as
    parameters. */
module ShapeParser {
  import opened Outcomes
  import Edges

  type Path = string

  /** The configured target shape: a single (possibly absent) shape, or a
      mapping from query variables to lists of (possibly absent) shapes, kept
      in insertion order. */
  datatype TargetSpec =
    | Single(shape: Option<Edges.ShapeId>)
    | PerVariable(entries: seq<(string, seq<Option<Edges.ShapeId>>)>)

  /** The configuration switches the parser reads. */
  datatype Config = Config(
    target: TargetSpec,
    removeConstraints: bool,
    pruneShapeNetwork: bool,
    replaceTargetQuery: bool,
    startWithTargetShape: bool)

  /** One constraint as written in the schema: its path (a leading `^` marks
      an inverse path) and the shape it references, if any. */
  datatype ConstraintObj = ConstraintObj(path: Path, shape: Option<Edges.ShapeId>)

  /** The parser's state. `predicates` are the query's predicates; `removed`
      maps a shape to the paths of the constraints dropped from it. */
  datatype Parser = Parser(
    config: Config,
    predicates: set<Path>,
    targetShapes: seq<(string, seq<Option<Edges.ShapeId>>)>,
    targetShapeList: seq<Edges.ShapeId>,
    current: Option<Edges.ShapeId>,
    removed: map<Edges.ShapeId, seq<Path>>)

  datatype ParseError =
    | EmptyTargetMapping   // folding the lists of an empty target mapping
    | MissingRemovedList   // the current shape has no list of removed paths
    | UnknownShape         // a reverse edge into a shape that is not in the network

  /** The key a single target shape is filed under. */
  const UndefinedVariable: string := "UNDEF"

  // ------------------------------------------------------------ target shapes

  /** The target mapping: a single target becomes a one-entry mapping. */
  function TargetShapes(t: TargetSpec): seq<(string, seq<Option<Edges.ShapeId>>)> {
    match t
    case Single(s) => [(UndefinedVariable, [s])]
    case PerVariable(entries) => entries
  }

  /** The value lists of a mapping, in order. */
  function Values(entries: seq<(string, seq<Option<Edges.ShapeId>>)>): (r: seq<seq<Option<Edges.ShapeId>>>)
    ensures |r| == |entries|
    ensures forall j :: 0 <= j < |r| ==> r[j] == entries[j].1
  {
    seq(|entries|, j requires 0 <= j < |entries| => entries[j].1)
  }

  /** Left fold of list concatenation over a non-empty sequence of lists. */
  function Concat(lists: seq<seq<Option<Edges.ShapeId>>>): seq<Option<Edges.ShapeId>>
    requires |lists| > 0
    decreases |lists|
  {
    if |lists| == 1 then lists[0] else Concat(lists[..|lists| - 1]) + lists[|lists| - 1]
  }

  /** Reference order of the target list: filter each variable's list, then
      concatenate. */
  function PerVariableTargets(entries: seq<(string, seq<Option<Edges.ShapeId>>)>): seq<Edges.ShapeId>
    decreases |entries|
  {
    if entries == [] then []
    else PerVariableTargets(entries[..|entries| - 1]) + Present(entries[|entries| - 1].1)
  }

  /** A fresh parser. Folding the value lists of an empty target mapping has
      no initial value and fails. */
  function NewParser(config: Config, predicates: set<Path>): (r: Result<Parser, ParseError>)
    ensures r.Failure? <==> config.target == PerVariable([])
    ensures r.Success? ==> (r.value.config == config && r.value.predicates == predicates
                            && r.value.current == None && r.value.removed == map[])
    ensures r.Success? && config.target.Single? ==>
              r.value.targetShapes == [(UndefinedVariable, [config.target.shape])]
              && r.value.targetShapeList == (if config.target.shape.Some? then [config.target.shape.value] else [])
    ensures r.Success? ==> r.value.targetShapes == TargetShapes(config.target)
    ensures r.Success? && config.target.PerVariable? ==> r.value.targetShapes == config.target.entries
    ensures r.Success? ==> r.value.targetShapeList == PerVariableTargets(TargetShapes(config.target))
  {
    var ts := TargetShapes(config.target);
    if ts == [] then Failure(EmptyTargetMapping)
    else
      var list := Present(Concat(Values(ts)));
      TargetListOrder(ts);
      Success(Parser(config, predicates, ts, list, None, map[]))
  }

  /** Concatenating then dropping absent shapes equals dropping per variable
      then concatenating: the target list keeps the mapping's order. */
  lemma {:induction false} TargetListOrder(entries: seq<(string, seq<Option<Edges.ShapeId>>)>)
    requires |entries| > 0
    ensures Present(Concat(Values(entries))) == PerVariableTargets(entries)
    decreases |entries|
  {
    var prefix := entries[..|entries| - 1];
    if |entries| == 1 {
      assert prefix == [];
      assert Present(entries[0].1) == [] + Present(entries[0].1);
    } else {
      TargetListOrder(prefix);
      assert Values(entries)[..|entries| - 1] == Values(prefix);
      PresentAppend(Concat(Values(prefix)), entries[|entries| - 1].1);
    }
  }

  /** A shape is in the target list exactly when it appears, present, in one
      of the mapping's lists. */
  lemma {:induction false} TargetListMembers(entries: seq<(string, seq<Option<Edges.ShapeId>>)>, t: Edges.ShapeId)
    ensures t in PerVariableTargets(entries)
        <==> exists j :: 0 <= j < |entries| && Some(t) in entries[j].1
    decreases |entries|
  {
    if entries != [] {
      var prefix := entries[..|entries| - 1];
      var last := entries[|entries| - 1].1;
      TargetListMembers(prefix, t);
      assert PerVariableTargets(entries) == PerVariableTargets(prefix) + Present(last);
      if t in PerVariableTargets(prefix) {
        var j :| 0 <= j < |prefix| && Some(t) in prefix[j].1;
        assert entries[j] == prefix[j];
      } else if Some(t) in last {
        assert Some(t) in entries[|entries| - 1].1;
      } else {
        forall j | 0 <= j < |prefix| ensures entries[j] == prefix[j] { }
      }
    }
  }

  // --------------------------------------------------------------- constraints

  /** A path with one leading `^` removed: an inverse path is matched against
      the query by its forward predicate. */
  function StripInverse(p: Path): (r: Path)
    ensures |p| > 0 && p[0] == '^' ==> "^" + r == p
    ensures !(|p| > 0 && p[0] == '^') ==> r == p
  {
    if |p| > 0 && p[0] == '^' then p[1..] else p
  }

  /** The shape a constraints id belongs to: the id without its last three
      characters (the empty string for shorter ids). */
  function ShapeOfConstraints(constraintsId: string): (r: Edges.ShapeId)
    ensures |constraintsId| >= 3 ==> r + constraintsId[|constraintsId| - 3..] == constraintsId
    ensures |constraintsId| < 3 ==> r == ""
  {
    if |constraintsId| >= 3 then constraintsId[..|constraintsId| - 3] else ""
  }

  /** The relevance rule of the parser's documentation: with constraint
      removal on, a constraint of a target shape, or one referencing a target
      shape, is relevant only when its predicate occurs in the query; every
      other constraint is relevant. */
  predicate Relevant(p: Parser, obj: ConstraintObj) {
    var subjectIsTarget := p.current.Some? && p.current.value in p.targetShapeList;
    var objectIsTarget := obj.shape.Some? && obj.shape.value in p.targetShapeList;
    !p.config.removeConstraints || !(subjectIsTarget || objectIsTarget) || StripInverse(obj.path) in p.predicates
  }

  /** Parses one constraint of the current shape: either keeps it, or drops
      it (no constraint) and records its path as removed from the current
      shape. Recording fails when the current shape has no removed list. */
  function ParseConstraint(p: Parser, obj: ConstraintObj): (r: Result<(Parser, Option<ConstraintObj>), ParseError>)
    ensures !p.config.removeConstraints ==> r == Success((p, Some(obj)))
    ensures ((p.current.None? || p.current.value !in p.targetShapeList)
             && (obj.shape.None? || obj.shape.value !in p.targetShapeList)) ==> r == Success((p, Some(obj)))
    ensures r.Failure? <==> !Relevant(p, obj) && !(p.current.Some? && p.current.value in p.removed)
    ensures r.Success? ==> (r.value.1 == Some(obj) <==> Relevant(p, obj)) && (r.value.1 == None <==> !Relevant(p, obj))
    ensures r.Success? && Relevant(p, obj) ==> r.value.0 == p
    ensures r.Success? && !Relevant(p, obj) ==>
              r.value.0 == p.(removed := p.removed[p.current.value := p.removed[p.current.value] + [obj.path]])
  {
    if p.config.removeConstraints
       && ((p.current.Some? && p.current.value in p.targetShapeList)
           || (obj.shape.Some? && obj.shape.value in p.targetShapeList))
    then
      var path := StripInverse(obj.path);
      if path in p.predicates then Success((p, Some(obj)))
      else if p.current.Some? && p.current.value in p.removed then
        var cur := p.current.value;
        Success((p.(removed := p.removed[cur := p.removed[cur] + [obj.path]]), None))
      else Failure(MissingRemovedList)
    else Success((p, Some(obj)))
  }

  /** The constraints the relevance rule keeps, in order. */
  function KeptOf(p: Parser, objs: seq<ConstraintObj>): seq<ConstraintObj>
    decreases |objs|
  {
    if objs == [] then []
    else
      var last := objs[|objs| - 1];
      KeptOf(p, objs[..|objs| - 1]) + (if Relevant(p, last) then [last] else [])
  }

  /** The paths of the constraints the relevance rule drops, in order. */
  function DroppedOf(p: Parser, objs: seq<ConstraintObj>): seq<Path>
    decreases |objs|
  {
    if objs == [] then []
    else
      var last := objs[|objs| - 1];
      DroppedOf(p, objs[..|objs| - 1]) + (if Relevant(p, last) then [] else [last.path])
  }

  /** The parser state of the current shape only differs in its removed lists. */
  predicate SameExceptRemoved(p: Parser, q: Parser) {
    q.config == p.config && q.predicates == p.predicates && q.targetShapes == p.targetShapes
    && q.targetShapeList == p.targetShapeList && q.current == p.current
  }

  /** Parses a sequence of constraints one by one, as the superclass does,
      returning the parse result of each (absent for a dropped constraint). */
  function ParseEach(p: Parser, objs: seq<ConstraintObj>): (r: (Parser, seq<Option<ConstraintObj>>))
    requires p.current.Some? && p.current.value in p.removed
    ensures SameExceptRemoved(p, r.0)
    ensures r.0.removed.Keys == p.removed.Keys
    ensures forall k :: k in p.removed && k != p.current.value ==> r.0.removed[k] == p.removed[k]
    ensures r.0.removed[p.current.value] == p.removed[p.current.value] + DroppedOf(p, objs)
    ensures Present(r.1) == KeptOf(p, objs)
    decreases |objs|
  {
    if objs == [] then (p, [])
    else
      var last := objs[|objs| - 1];
      var (q, rs) := ParseEach(p, objs[..|objs| - 1]);
      assert Relevant(q, last) == Relevant(p, last);
      var step := ParseConstraint(q, last).value;
      PresentAppend(rs, [step.1]);
      (step.0, rs + [step.1])
  }

  /** Parses the constraints of one shape: makes the shape named by the
      constraints id current, resets its removed list, and returns the kept
      constraints in order. */
  function ParseConstraints(p: Parser, constraintsId: string, objs: seq<ConstraintObj>): (r: (Parser, seq<ConstraintObj>))
    ensures r.0.current == Some(ShapeOfConstraints(constraintsId))
    ensures r.0.config == p.config && r.0.predicates == p.predicates
         && r.0.targetShapes == p.targetShapes && r.0.targetShapeList == p.targetShapeList
    ensures r.0.removed.Keys == p.removed.Keys + {ShapeOfConstraints(constraintsId)}
    ensures forall k :: k in p.removed && k != ShapeOfConstraints(constraintsId) ==> r.0.removed[k] == p.removed[k]
    ensures r.1 == KeptOf(r.0, objs)
    ensures r.0.removed[ShapeOfConstraints(constraintsId)] == DroppedOf(r.0, objs)
  {
    var cur := ShapeOfConstraints(constraintsId);
    var p0 := p.(current := Some(cur), removed := p.removed[cur := []]);
    var (q, rs) := ParseEach(p0, objs);
    KeptOfSameRule(p0, q, objs);
    (q, Present(rs))
  }

  /** Keeping and dropping depend only on the relevance rule's inputs. */
  lemma {:induction false} KeptOfSameRule(p: Parser, q: Parser, objs: seq<ConstraintObj>)
    requires SameExceptRemoved(p, q)
    ensures KeptOf(p, objs) == KeptOf(q, objs) && DroppedOf(p, objs) == DroppedOf(q, objs)
    decreases |objs|
  {
    if objs != [] {
      KeptOfSameRule(p, q, objs[..|objs| - 1]);
    }
  }

  /** Every constraint is either kept or has its path recorded as dropped. */
  lemma {:induction false} KeptOrDropped(p: Parser, objs: seq<ConstraintObj>, c: ConstraintObj)
    requires c in objs
    ensures Relevant(p, c) ==> c in KeptOf(p, objs)
    ensures !Relevant(p, c) ==> c.path in DroppedOf(p, objs)
    decreases |objs|
  {
    var prefix := objs[..|objs| - 1];
    if c != objs[|objs| - 1] {
      assert c in prefix by {
        var i :| 0 <= i < |objs| && objs[i] == c;
        assert i < |prefix| && prefix[i] == c;
      }
      KeptOrDropped(p, prefix, c);
    }
  }

  /** Every constraint is accounted for exactly once: kept or dropped. */
  lemma {:induction false} KeptAndDroppedPartition(p: Parser, objs: seq<ConstraintObj>)
    ensures |KeptOf(p, objs)| + |DroppedOf(p, objs)| == |objs|
    decreases |objs|
  {
    if objs != [] {
      KeptAndDroppedPartition(p, objs[..|objs| - 1]);
    }
  }

  // ---------------------------------------------------------------- references

  /** A constraint references a shape when its shape is present and not the
      empty string. */
  predicate References(c: ConstraintObj) {
    c.shape.Some? && c.shape.value != ""
  }

  /** A constraint whose reference survives: it references a shape and its
      path was not removed. */
  predicate Survives(c: ConstraintObj, gone: seq<Path>) {
    References(c) && c.path !in gone
  }

  /** Constraint `i` is the last surviving one that references `k`. */
  predicate LastSurvivorAt(cs: seq<ConstraintObj>, gone: seq<Path>, k: Edges.ShapeId, i: int) {
    0 <= i < |cs| && Survives(cs[i], gone) && cs[i].shape.value == k
    && forall j :: 0 <= j < |cs| && i < j && Survives(cs[j], gone) ==> cs[j].shape.value != k
  }

  /** Some surviving constraint references `k`. */
  predicate SurvivorFor(cs: seq<ConstraintObj>, gone: seq<Path>, k: Edges.ShapeId) {
    exists i :: 0 <= i < |cs| && Survives(cs[i], gone) && cs[i].shape.value == k
  }

  /** The mapping from referenced shape to path over the surviving
      constraints, built in order so that a later entry overwrites. */
  function RefMap(cs: seq<ConstraintObj>, gone: seq<Path>): map<Edges.ShapeId, Path>
    decreases |cs|
  {
    if cs == [] then map[]
    else
      var c := cs[|cs| - 1];
      var m := RefMap(cs[..|cs| - 1], gone);
      if Survives(c, gone) then m[c.shape.value := c.path] else m
  }

  /** The keys are the shapes referenced by surviving constraints, and each
      maps to the path of the last such constraint. */
  lemma {:induction false} RefMapLastWins(cs: seq<ConstraintObj>, gone: seq<Path>, k: Edges.ShapeId)
    ensures k in RefMap(cs, gone) <==> SurvivorFor(cs, gone, k)
    ensures k in RefMap(cs, gone) ==> exists i :: LastSurvivorAt(cs, gone, k, i) && RefMap(cs, gone)[k] == cs[i].path
    decreases |cs|
  {
    if cs != [] {
      var prefix := cs[..|cs| - 1];
      var c := cs[|cs| - 1];
      RefMapLastWins(prefix, gone, k);
      assert forall i :: 0 <= i < |prefix| ==> prefix[i] == cs[i];
      if SurvivorFor(cs, gone, k) && !(Survives(c, gone) && c.shape.value == k) {
        var i :| 0 <= i < |cs| && Survives(cs[i], gone) && cs[i].shape.value == k;
        assert i < |prefix|;
        assert SurvivorFor(prefix, gone, k);
      }
      if Survives(c, gone) && c.shape.value == k {
        assert LastSurvivorAt(cs, gone, k, |cs| - 1);
      } else if k in RefMap(prefix, gone) {
        var i :| LastSurvivorAt(prefix, gone, k, i) && RefMap(prefix, gone)[k] == prefix[i].path;
        assert LastSurvivorAt(cs, gone, k, i);
      }
    }
  }

  /** The references of the current shape to other shapes: every shape
      referenced by a constraint whose path was not removed, mapped to the
      path of the last such constraint. The removed list of the current shape
      is only consulted once a referencing constraint is met, so a missing
      list fails only then. */
  function ShapeReferences(p: Parser, cs: seq<ConstraintObj>): (r: Result<map<Edges.ShapeId, Path>, ParseError>)
    ensures r.Failure? <==> (!(p.current.Some? && p.current.value in p.removed)
                             && exists i :: 0 <= i < |cs| && References(cs[i]))
    ensures r.Success? ==> var gone := if p.current.Some? && p.current.value in p.removed
                                       then p.removed[p.current.value] else [];
              forall k :: (k in r.value <==> SurvivorFor(cs, gone, k))
                          && (k in r.value ==> exists i :: LastSurvivorAt(cs, gone, k, i) && r.value[k] == cs[i].path)
  {
    var known := p.current.Some? && p.current.value in p.removed;
    if !known && exists i :: 0 <= i < |cs| && References(cs[i]) then Failure(MissingRemovedList)
    else
      var gone := if known then p.removed[p.current.value] else [];
      var m := RefMap(cs, gone);
      assert forall k :: (k in m <==> SurvivorFor(cs, gone, k))
                        && (k in m ==> exists i :: LastSurvivorAt(cs, gone, k, i) && m[k] == cs[i].path) by {
        forall k ensures (k in m <==> SurvivorFor(cs, gone, k))
                        && (k in m ==> exists i :: LastSurvivorAt(cs, gone, k, i) && m[k] == cs[i].path) {
          RefMapLastWins(cs, gone, k);
        }
      }
      Success(m)
  }

  /** Constraints removed while parsing a shape do not appear in its
      references: right after its constraints are parsed, every reference of
      the shape is backed by a kept constraint with that shape and path. */
  lemma ReferencesFromKept(p: Parser, constraintsId: string, cs: seq<ConstraintObj>)
    ensures ShapeReferences(ParseConstraints(p, constraintsId, cs).0, cs).Success?
    ensures var (q, kept) := ParseConstraints(p, constraintsId, cs);
            var refs := ShapeReferences(q, cs).value;
            forall k :: k in refs ==> exists c :: c in kept && c.shape == Some(k) && c.path == refs[k]
  {
    var (q, kept) := ParseConstraints(p, constraintsId, cs);
    var refs := ShapeReferences(q, cs).value;
    forall k | k in refs
      ensures exists c :: c in kept && c.shape == Some(k) && c.path == refs[k]
    {
      var i :| LastSurvivorAt(cs, DroppedOf(q, cs), k, i) && refs[k] == cs[i].path;
      KeptOrDropped(q, cs, cs[i]);
    }
  }

  /** A kept constraint can still lose its reference: when a dropped
      constraint of the same shape shares its path, the removed list hides
      both. Here a constraint of a non-target shape `A` referencing `S` is
      kept, yet `A` has no references. */
  lemma SharedPathHidesReference()
    ensures var p := Parser(Config(Single(Some("T")), true, true, true, true), {},
                            [(UndefinedVariable, [Some("T")])], ["T"], None, map[]);
            var cs := [ConstraintObj("ex:p", Some("T")), ConstraintObj("ex:p", Some("S"))];
            var (q, kept) := ParseConstraints(p, "A_c0", cs);
            kept == [cs[1]] && ShapeReferences(q, cs) == Success(map[])
  {
    var p := Parser(Config(Single(Some("T")), true, true, true, true), {},
                    [(UndefinedVariable, [Some("T")])], ["T"], None, map[]);
    var cs := [ConstraintObj("ex:p", Some("T")), ConstraintObj("ex:p", Some("S"))];
    var (q, kept) := ParseConstraints(p, "A_c0", cs);
    assert "A_c0"[..1] == "A";
    assert q.current == Some("A");
    assert !Relevant(q, cs[0]);
    assert Relevant(q, cs[1]);
    assert cs[..1] == [cs[0]];
    assert [cs[0]][..0] == [];
    assert DroppedOf(q, [cs[0]]) == ["ex:p"];
    assert DroppedOf(q, cs) == ["ex:p"];
    assert KeptOf(q, [cs[0]]) == [];
    assert RefMap([cs[0]], ["ex:p"]) == map[];
    assert RefMap(cs, ["ex:p"]) == map[];
  }

  // --------------------------------------------------------------------- edges

  /** Reverse edges are admitted only with constraint removal on, and then
      only into target shapes. */
  function ReducedAdmit(p: Parser): Edges.Admit {
    Edges.Only(if p.config.removeConstraints then set t | t in p.targetShapeList else {})
  }

  /** The dependency and reverse-dependency maps of the reduced network.
      Adding a reverse edge into a target shape that is not in the network
      fails. */
  function ComputeReducedEdges(p: Parser, shapes: seq<Edges.Node>)
    : (r: Result<(map<Edges.ShapeId, seq<Edges.ShapeId>>, map<Edges.ShapeId, seq<Edges.ShapeId>>), ParseError>)
    ensures r.Failure? <==> (p.config.removeConstraints
                             && exists i, k :: 0 <= i < |shapes| && 0 <= k < |shapes[i].refs|
                                  && shapes[i].refs[k] in p.targetShapeList && shapes[i].refs[k] !in Edges.Ids(shapes))
    ensures r.Success? ==> r.value.0.Keys == Edges.Ids(shapes) && r.value.1.Keys == Edges.Ids(shapes)
    ensures r.Success? ==> r.value.0 == Edges.Forward(shapes)
    ensures r.Success? ==> forall ref :: ref in r.value.1 && r.value.1[ref] != [] ==>
              p.config.removeConstraints && ref in p.targetShapeList
    ensures r.Success? ==> forall ref :: ref in r.value.1 ==>
              r.value.1[ref] == Edges.Sources(shapes, ReducedAdmit(p), ref)
  {
    match Edges.Compute(shapes, ReducedAdmit(p))
    case Failure(_) => Failure(UnknownShape)
    case Success(maps) =>
      assert forall ref :: ref in maps.1 && maps.1[ref] != [] ==>
               p.config.removeConstraints && ref in p.targetShapeList by {
        forall ref | ref in maps.1 && maps.1[ref] != []
          ensures p.config.removeConstraints && ref in p.targetShapeList
        {
          assert Edges.Sources(shapes, ReducedAdmit(p), ref) != [];
        }
      }
      Success(maps)
  }

  /** Whatever the ids, `name` is in the reduced reverse list of `ref` exactly
      when removal is on, `ref` is a target shape, and some shape named `name`
      references `ref`. */
  lemma ReducedReverseMembership(p: Parser, shapes: seq<Edges.Node>, ref: Edges.ShapeId, name: Edges.ShapeId)
    requires ComputeReducedEdges(p, shapes).Success?
    requires ref in Edges.Ids(shapes)
    ensures name in ComputeReducedEdges(p, shapes).value.1[ref]
        <==> (p.config.removeConstraints && ref in p.targetShapeList
              && exists i :: 0 <= i < |shapes| && shapes[i].id == name && ref in shapes[i].refs)
  {
    Edges.SourcesMembership(shapes, ReducedAdmit(p), ref, name);
  }

  /** With duplicate ids the reverse map is no inverse of the dependency map:
      the first `A` references the target `T`, the second `A` overwrites its
      dependencies with `[S]`, yet `A` stays in the reverse list of `T`. */
  lemma DuplicateIdsBreakInverse(p: Parser, shapes: seq<Edges.Node>)
    requires p.config.removeConstraints && p.targetShapeList == ["T"]
    requires shapes == [Edges.Node("A", ["T"]), Edges.Node("A", ["S"]), Edges.Node("T", []), Edges.Node("S", [])]
    ensures ComputeReducedEdges(p, shapes).Success?
    ensures "T" in ComputeReducedEdges(p, shapes).value.1
    ensures "A" in ComputeReducedEdges(p, shapes).value.1["T"]
    ensures "A" in ComputeReducedEdges(p, shapes).value.0 && ComputeReducedEdges(p, shapes).value.0["A"] == ["S"]
  {
    DuplicateExampleSucceeds(p, shapes);
    DuplicateExampleReverse(p, shapes);
    ForwardOfDuplicate(shapes);
  }

  /** The first `A` of the example above puts `A` into the reverse list of `T`. */
  lemma DuplicateExampleReverse(p: Parser, shapes: seq<Edges.Node>)
    requires p.config.removeConstraints && p.targetShapeList == ["T"]
    requires shapes == [Edges.Node("A", ["T"]), Edges.Node("A", ["S"]), Edges.Node("T", []), Edges.Node("S", [])]
    requires ComputeReducedEdges(p, shapes).Success?
    ensures "T" in ComputeReducedEdges(p, shapes).value.1
    ensures "A" in ComputeReducedEdges(p, shapes).value.1["T"]
  {
    assert "T" in Edges.Ids(shapes) by { assert shapes[2].id == "T"; }
    ReducedReverseMembership(p, shapes, "T", "A");
    assert shapes[0].id == "A" && "T" in shapes[0].refs;
  }

  /** Every reference of the example above names a shape, so the reduced
      edge computation succeeds. */
  lemma DuplicateExampleSucceeds(p: Parser, shapes: seq<Edges.Node>)
    requires p.config.removeConstraints && p.targetShapeList == ["T"]
    requires shapes == [Edges.Node("A", ["T"]), Edges.Node("A", ["S"]), Edges.Node("T", []), Edges.Node("S", [])]
    ensures ComputeReducedEdges(p, shapes).Success?
  {
    assert shapes[2].id == "T" && shapes[3].id == "S";
    assert forall i, k :: 0 <= i < |shapes| && 0 <= k < |shapes[i].refs| ==> shapes[i].refs[k] in Edges.Ids(shapes);
  }

  /** The dependencies of the duplicated `A` above come from its second shape. */
  lemma ForwardOfDuplicate(shapes: seq<Edges.Node>)
    requires shapes == [Edges.Node("A", ["T"]), Edges.Node("A", ["S"]), Edges.Node("T", []), Edges.Node("S", [])]
    ensures "A" in Edges.Forward(shapes) && Edges.Forward(shapes)["A"] == ["S"]
  {
    var deps := Edges.Forward(shapes);
    assert shapes[0].id == "A";
    assert "A" in deps;
    assert !Edges.NoRefsAfter(shapes, "A", -1) by {
      assert shapes[1].id == "A" && shapes[1].refs != [];
    }
    var i :| Edges.LastRefsAt(shapes, "A", deps["A"], i);
    assert i == 1 by {
      assert !Edges.NoRefsAfter(shapes, "A", 0) by {
        assert shapes[1].id == "A" && shapes[1].refs != [];
      }
      assert shapes[2].id != "A" && shapes[3].id != "A";
    }
  }

  /** Every reverse edge has a matching forward edge, and reverse edges are
      exactly the forward edges into target shapes when constraint removal is
      on (shape ids distinct). */
  lemma ReducedReverseMatchesForward(p: Parser, shapes: seq<Edges.Node>, ref: Edges.ShapeId, name: Edges.ShapeId)
    requires Edges.DistinctIds(shapes)
    requires ComputeReducedEdges(p, shapes).Success?
    requires ref in Edges.Ids(shapes) && name in Edges.Ids(shapes)
    ensures var (deps, rev) := ComputeReducedEdges(p, shapes).value;
            name in rev[ref] <==> ref in deps[name] && p.config.removeConstraints && ref in p.targetShapeList
  {
    var (deps, rev) := ComputeReducedEdges(p, shapes).value;
    var a := ReducedAdmit(p);
    Edges.SourcesMembership(shapes, a, ref, name);
    var i :| 0 <= i < |shapes| && shapes[i].id == name;
    Edges.ForwardOfDistinct(shapes, i);
    if exists j :: 0 <= j < |shapes| && shapes[j].id == name && ref in shapes[j].refs {
      var j :| 0 <= j < |shapes| && shapes[j].id == name && ref in shapes[j].refs;
      assert j == i;
    }
  }

  // ----------------------------------------------------------- schema parsing

  /** What parsing the schema directory hands on: the shapes to validate,
      whether target queries are replaced, the traversal order when
      validation starts at the target shapes, and the target list. */
  datatype ParseOutcome = ParseOutcome(
    shapes: seq<Edges.Node>,
    replaceTargetQueries: bool,
    nodeOrder: Option<seq<Edges.ShapeId>>,
    targets: seq<Edges.ShapeId>)

  /** The branch logic of parsing a schema directory. The full network, its
      pruned form and the traversal order come from collaborators outside this
      model and are parameters. */
  function ParseShapesFromDir(p: Parser, allShapes: seq<Edges.Node>, prunedShapes: seq<Edges.Node>,
                              nodeOrder: seq<Edges.ShapeId>): (r: ParseOutcome)
    ensures r.shapes == (if p.config.pruneShapeNetwork then prunedShapes else allShapes)
    ensures r.replaceTargetQueries <==>
              p.config.replaceTargetQuery && forall j :: 0 <= j < |p.targetShapes| ==> p.targetShapes[j].0 != UndefinedVariable
    ensures r.nodeOrder.Some? <==> p.config.startWithTargetShape
    ensures r.nodeOrder.Some? ==> r.nodeOrder.value == nodeOrder
    ensures r.targets == p.targetShapeList
  {
    var shapes := if p.config.pruneShapeNetwork then prunedShapes else allShapes;
    var undefined := exists j :: 0 <= j < |p.targetShapes| && p.targetShapes[j].0 == UndefinedVariable;
    var replace := p.config.replaceTargetQuery && !undefined;
    ParseOutcome(shapes, replace, if p.config.startWithTargetShape then Some(nodeOrder) else None, p.targetShapeList)
  }

  /** A single configured target shape never has its target query replaced,
      whatever the configuration says. */
  lemma SingleTargetKeepsTargetQuery(config: Config, predicates: set<Path>, allShapes: seq<Edges.Node>,
                                      prunedShapes: seq<Edges.Node>, nodeOrder: seq<Edges.ShapeId>)
    requires config.target.Single?
    ensures NewParser(config, predicates).Success?
    ensures !ParseShapesFromDir(NewParser(config, predicates).value, allShapes, prunedShapes, nodeOrder).replaceTargetQueries
  {
  }

  /** The target query of one shape: the prefix declarations, and the query
      with and without them. */
  datatype TargetQuery = TargetQuery(prefixes: string, query: string, queryNoPrefixes: string)

  /** Replaces a shape's target query; the derived queries are recomputed by
      code outside this model. */
  function ReplaceTargetQuery(t: TargetQuery, query: string): (r: TargetQuery)
    ensures r.prefixes == t.prefixes
    ensures r.queryNoPrefixes == query
    ensures |r.query| == |r.prefixes| + |r.queryNoPrefixes|
    ensures r.query[..|r.prefixes|] == r.prefixes && r.query[|r.prefixes|..] == r.queryNoPrefixes
  {
    TargetQuery(t.prefixes, t.prefixes + query, query)
  }
}

=== FILE: shape_schema.dfy ===
/** The shape network of the s2spy back end: the id-to-shape lookup, the full
    dependency and reverse-dependency graph, and the guard on how validation
    may start. Shape parsing, SPARQL access and the rule-based validation run
    are outside this model. */
module ShapeSchema {
  import opened Outcomes
  import Edges


  datatype SchemaError =
    | UnknownShape     // a reference to a shape that is not in the network
    | NotImplemented   // validation asked not to start at the target shape

  /** The parts of a shape network this model keeps. */
  datatype Schema = Schema(
    shapes: seq<Edges.Node>,
    shapesDict: map<Edges.ShapeId, Edges.Node>,
    dependencies: map<Edges.ShapeId, seq<Edges.ShapeId>>,
    reverseDependencies: map<Edges.ShapeId, seq<Edges.ShapeId>>,
    targetShape: Edges.ShapeId)

  /** Shape `i` is the last shape with id `k`. */
  predicate LastWithId(shapes: seq<Edges.Node>, k: Edges.ShapeId, i: int) {
    0 <= i < |shapes| && shapes[i].id == k
    && forall j :: 0 <= j < |shapes| && i < j ==> shapes[j].id != k
  }

  /** The lookup from id to shape, built in order so that a later shape with
      the same id overrides an earlier one. */
  function Lookup(shapes: seq<Edges.Node>): map<Edges.ShapeId, Edges.Node>
    decreases |shapes|
  {
    if shapes == [] then map[]
    else
      var s := shapes[|shapes| - 1];
      Lookup(shapes[..|shapes| - 1])[s.id := s]
  }

  lemma {:induction false} LookupLastWins(shapes: seq<Edges.Node>, k: Edges.ShapeId)
    ensures k in Lookup(shapes) <==> k in Edges.Ids(shapes)
    ensures k in Lookup(shapes) ==> exists i :: LastWithId(shapes, k, i) && Lookup(shapes)[k] == shapes[i]
    decreases |shapes|
  {
    if shapes != [] {
      var prefix := shapes[..|shapes| - 1];
      var s := shapes[|shapes| - 1];
      LookupLastWins(prefix, k);
      if k == s.id {
        assert LastWithId(shapes, k, |shapes| - 1);
      } else {
        if k in Edges.Ids(shapes) {
          var i :| 0 <= i < |shapes| && shapes[i].id == k;
          assert prefix[i].id == k;
        }
        if k in Lookup(prefix) {
          var i :| LastWithId(prefix, k, i) && Lookup(prefix)[k] == prefix[i];
          assert LastWithId(shapes, k, i);
        }
      }
    }
  }

  /** The id-to-shape lookup: its keys are the shape ids, and each id maps to
      the last shape carrying it. */
  function ShapesDict(shapes: seq<Edges.Node>): (d: map<Edges.ShapeId, Edges.Node>)
    ensures d.Keys == Edges.Ids(shapes)
    ensures forall k :: k in d ==> exists i :: LastWithId(shapes, k, i) && d[k] == shapes[i]
  {
    var d := Lookup(shapes);
    assert d.Keys == Edges.Ids(shapes) && forall k :: k in d ==> exists i :: LastWithId(shapes, k, i) && d[k] == shapes[i] by {
      forall k ensures (k in d <==> k in Edges.Ids(shapes))
                       && (k in d ==> exists i :: LastWithId(shapes, k, i) && d[k] == shapes[i]) {
        LookupLastWins(shapes, k);
      }
    }
    d
  }

  /** With distinct ids, the lookup finds every shape under its own id. */
  lemma ShapesDictOfDistinct(shapes: seq<Edges.Node>, i: int)
    requires Edges.DistinctIds(shapes)
    requires 0 <= i < |shapes|
    ensures ShapesDict(shapes)[shapes[i].id] == shapes[i]
  {
  }

  /** The full dependency graph. Every reference receives a reverse edge, so
      a reference to a shape outside the network fails. */
  function ComputeEdges(shapes: seq<Edges.Node>)
    : (r: Result<(map<Edges.ShapeId, seq<Edges.ShapeId>>, map<Edges.ShapeId, seq<Edges.ShapeId>>), SchemaError>)
    ensures r.Failure? <==> exists i, k :: 0 <= i < |shapes| && 0 <= k < |shapes[i].refs|
                                           && shapes[i].refs[k] !in Edges.Ids(shapes)
    ensures r.Success? ==> r.value.0.Keys == Edges.Ids(shapes) && r.value.1.Keys == Edges.Ids(shapes)
    ensures r.Success? ==> r.value.0 == Edges.Forward(shapes)
    ensures r.Success? ==> forall ref :: ref in r.value.1 ==> r.value.1[ref] == Edges.Sources(shapes, Edges.All, ref)
  {
    match Edges.Compute(shapes, Edges.All)
    case Failure(_) => Failure(UnknownShape)
    case Success(maps) => Success(maps)
  }

  /** Builds the network from parsed shapes; the edge computation may fail. */
  function NewSchema(shapes: seq<Edges.Node>, targetShape: Edges.ShapeId): (r: Result<Schema, SchemaError>)
    ensures r.Success? <==> ComputeEdges(shapes).Success?
    ensures r.Success? ==> (r.value.shapes == shapes && r.value.targetShape == targetShape
                            && r.value.shapesDict.Keys == r.value.dependencies.Keys == r.value.reverseDependencies.Keys)
    ensures r.Success? ==> (r.value.shapesDict == ShapesDict(shapes)
                            && r.value.dependencies == ComputeEdges(shapes).value.0
                            && r.value.reverseDependencies == ComputeEdges(shapes).value.1)
  {
    match ComputeEdges(shapes)
    case Failure(e) => Failure(e)
    case Success(maps) => Success(Schema(shapes, ShapesDict(shapes), maps.0, maps.1, targetShape))
  }

  /** The reverse map is the exact inverse of the dependency map, with
      multiplicity: with distinct ids, `name` occurs in the reverse list of
      `ref` once per occurrence of `ref` in the dependencies of `name`. */
  lemma ReverseIsExactInverse(shapes: seq<Edges.Node>, name: Edges.ShapeId, ref: Edges.ShapeId)
    requires Edges.DistinctIds(shapes)
    requires ComputeEdges(shapes).Success?
    requires name in Edges.Ids(shapes) && ref in Edges.Ids(shapes)
    ensures var (deps, rev) := ComputeEdges(shapes).value;
            multiset(rev[ref])[name] == multiset(deps[name])[ref]
  {
    var i :| 0 <= i < |shapes| && shapes[i].id == name;
    Edges.SourcesCount(shapes, Edges.All, ref, name);
    Edges.RefCountOfDistinct(shapes, i, ref);
    Edges.ForwardOfDistinct(shapes, i);
  }

  /** Without the distinctness assumption, membership still inverts the
      references: `name` is in the reverse list of `ref` exactly when some
      shape with id `name` references `ref`. */
  lemma ReverseMembership(shapes: seq<Edges.Node>, name: Edges.ShapeId, ref: Edges.ShapeId)
    requires ComputeEdges(shapes).Success?
    requires ref in Edges.Ids(shapes)
    ensures name in ComputeEdges(shapes).value.1[ref]
        <==> exists i :: 0 <= i < |shapes| && shapes[i].id == name && ref in shapes[i].refs
  {
    Edges.SourcesMembership(shapes, Edges.All, ref, name);
  }

  /** Reverse lists follow the order of the shapes: the entries contributed
      by the first `n` shapes form a prefix of every reverse list. */
  lemma ReverseFollowsShapeOrder(shapes: seq<Edges.Node>, n: nat, ref: Edges.ShapeId)
    requires n <= |shapes|
    requires ComputeEdges(shapes).Success?
    requires ref in Edges.Ids(shapes)
    ensures Edges.Sources(shapes[..n], Edges.All, ref) <= ComputeEdges(shapes).value.1[ref]
  {
    Edges.SourcesPrefix(shapes, Edges.All, ref, n);
  }

  /** Where the traversal of a validation run starts, handed with the graph
      to the traversal, and the report the run returns. */
  datatype ValidationStart = ValidationStart(
    start: Edges.ShapeId,
    dependencies: map<Edges.ShapeId, seq<Edges.ShapeId>>,
    reverseDependencies: map<Edges.ShapeId, seq<Edges.ShapeId>>,
    report: map<string, string>)

  /** Validation can only start at the target shape; asking otherwise fails.
      The traversal and the streaming validation run are outside this model;
      the returned report is always empty. */
  function Validate(schema: Schema, startWithTargetShape: bool): (r: Result<ValidationStart, SchemaError>)
    ensures r.Failure? <==> !startWithTargetShape
    ensures r.Failure? ==> r.error == NotImplemented
    ensures r.Success? ==> r.value.start == schema.targetShape && r.value.report == map[]
    ensures r.Success? ==> (r.value.dependencies == schema.dependencies
                            && r.value.reverseDependencies == schema.reverseDependencies)
  {
    if startWithTargetShape then
      Success(ValidationStart(schema.targetShape, schema.dependencies, schema.reverseDependencies, map[]))
    else Failure(NotImplemented)
  }

  /** Validating a freshly built network hands the traversal, starting at the
      target shape, a reverse map that exactly inverts the dependency map
      (shape ids distinct). */
  lemma ValidateGetsExactInverse(shapes: seq<Edges.Node>, targetShape: Edges.ShapeId, name: Edges.ShapeId, ref: Edges.ShapeId)
    requires Edges.DistinctIds(shapes)
    requires NewSchema(shapes, targetShape).Success?
    requires name in Edges.Ids(shapes) && ref in Edges.Ids(shapes)
    ensures var v := Validate(NewSchema(shapes, targetShape).value, true);
            v.Success? && v.value.start == targetShape
            && multiset(v.value.reverseDependencies[ref])[name] == multiset(v.value.dependencies[name])[ref]
  {
    ReverseIsExactInverse(shapes, name, ref);
  }
}

=== FILE: transmitter.dfy ===
/** The hand-off of validation verdicts from the validation back end to the
    rest of the pipeline, as a pure state machine. The two queues a transmitter
    may hold are modelled by the logs of the messages put on them; the clock
    reading taken for the first verdict is a parameter. */
module Transmitter {

  /** A clock reading. */
  type Timestamp = int

  /** The statistics topic of the first-verdict message. */
  const FirstValidationResult: string := "first_validation_result"

  /** One verdict: the instance, and the validation triple (shape, whether
      the instance is valid, the reason). */
  datatype Verdict = Verdict(instance: string, shape: string, valid: bool, reason: string)

  /** A message on the statistics queue: a topic and a time. */
  datatype StatsMsg = StatsMsg(topic: string, time: Timestamp)

  /** The transmitter: which queues it was given, whether the first-verdict
      message has gone out, and what has been put on each queue so far. */
  datatype Transmitter = Transmitter(
    hasOutputQueue: bool,
    hasTimeQueue: bool,
    firstResultSent: bool,
    output: seq<Verdict>,
    stats: seq<StatsMsg>)

  /** A fresh transmitter over the given queues: nothing sent yet. */
  function New(hasOutputQueue: bool, hasTimeQueue: bool): (t: Transmitter)
    ensures t.hasOutputQueue == hasOutputQueue && t.hasTimeQueue == hasTimeQueue
    ensures Consistent(t)
    ensures t.output == [] && t.stats == [] && !t.firstResultSent
  {
    Transmitter(hasOutputQueue, hasTimeQueue, false, [], [])
  }

  /** The lifetime invariant: exactly one statistics message once the flag is
      set, none before, and the flag is only ever set with a time queue. */
  predicate Consistent(t: Transmitter) {
    |t.stats| == (if t.firstResultSent then 1 else 0)
    && (t.firstResultSent ==> t.hasTimeQueue)
    && (t.stats != [] ==> t.stats[0].topic == FirstValidationResult)
    && (!t.hasOutputQueue ==> t.output == [])
  }

  /** Transmits one verdict read at time `now`: the first verdict seen with a
      time queue also puts the first-verdict message on it, and every verdict
      is put on the output queue when there is one. */
  function Send(t: Transmitter, v: Verdict, now: Timestamp): (t': Transmitter)
    ensures t'.hasOutputQueue == t.hasOutputQueue && t'.hasTimeQueue == t.hasTimeQueue
    ensures t'.firstResultSent == (t.firstResultSent || t.hasTimeQueue)
    ensures t'.output == (if t.hasOutputQueue then t.output + [v] else t.output)
    ensures t'.stats == (if !t.firstResultSent && t.hasTimeQueue
                         then t.stats + [StatsMsg(FirstValidationResult, now)] else t.stats)
    ensures Consistent(t) ==> Consistent(t')
  {
    var t1 := if !t.firstResultSent && t.hasTimeQueue
              then t.(firstResultSent := true, stats := t.stats + [StatsMsg(FirstValidationResult, now)])
              else t;
    if t1.hasOutputQueue then t1.(output := t1.output + [v]) else t1
  }

  /** Whether verdicts are streamed to the rest of the pipeline. */
  function UseStreaming(t: Transmitter): bool {
    t.hasOutputQueue
  }

  /** Transmits a sequence of verdicts, the `i`-th read at `clock[i]`. */
  function SendAll(t: Transmitter, vs: seq<Verdict>, clock: seq<Timestamp>): Transmitter
    requires |clock| == |vs|
    decreases |vs|
  {
    if vs == [] then t
    else Send(SendAll(t, vs[..|vs| - 1], clock[..|vs| - 1]), vs[|vs| - 1], clock[|vs| - 1])
  }

  /** Over any run, the first-verdict message is put at most once: a
      consistent transmitter stays consistent, keeps its queues, and once the
      message is out no further one follows. */
  lemma {:induction false} SendAllKeepsConsistent(t: Transmitter, vs: seq<Verdict>, clock: seq<Timestamp>)
    requires |clock| == |vs|
    requires Consistent(t)
    ensures var t' := SendAll(t, vs, clock);
            Consistent(t') && |t'.stats| <= 1
            && t'.hasOutputQueue == t.hasOutputQueue && t'.hasTimeQueue == t.hasTimeQueue
            && (t.firstResultSent ==> t'.stats == t.stats)
    decreases |vs|
  {
    if vs != [] {
      SendAllKeepsConsistent(t, vs[..|vs| - 1], clock[..|vs| - 1]);
    }
  }

  /** From a fresh transmitter: the first-verdict message is out after a run
      exactly when a time queue was given and at least one verdict was sent,
      and then it carries the time of the very first verdict. */
  lemma {:induction false} FirstResultOnFirstSend(hasOutputQueue: bool, hasTimeQueue: bool,
                                                  vs: seq<Verdict>, clock: seq<Timestamp>)
    requires |clock| == |vs|
    ensures var t := SendAll(New(hasOutputQueue, hasTimeQueue), vs, clock);
            (t.firstResultSent <==> hasTimeQueue && |vs| > 0)
            && (t.firstResultSent ==> t.stats == [StatsMsg(FirstValidationResult, clock[0])])
            && (!t.firstResultSent ==> t.stats == [])
    decreases |vs|
  {
    var t0 := New(hasOutputQueue, hasTimeQueue);
    if vs != [] {
      var prefix := vs[..|vs| - 1];
      var cprefix := clock[..|vs| - 1];
      FirstResultOnFirstSend(hasOutputQueue, hasTimeQueue, prefix, cprefix);
      SendAllKeepsConsistent(t0, prefix, cprefix);
      if |prefix| > 0 {
        assert cprefix[0] == clock[0];
      }
    }
  }

  /** Without a time queue no first-verdict message is ever put and the flag
      stays unset. */
  lemma NoTimeQueueNeverSent(hasOutputQueue: bool, vs: seq<Verdict>, clock: seq<Timestamp>)
    requires |clock| == |vs|
    ensures var t := SendAll(New(hasOutputQueue, false), vs, clock);
            !t.firstResultSent && t.stats == []
  {
  }

  /** The output queue receives exactly the verdicts sent, unchanged and in
      call order, when there is one, and nothing otherwise. */
  lemma {:induction false} OutputIsCallLog(t: Transmitter, vs: seq<Verdict>, clock: seq<Timestamp>)
    requires |clock| == |vs|
    ensures SendAll(t, vs, clock).output == (if t.hasOutputQueue then t.output + vs else t.output)
    decreases |vs|
  {
    if vs != [] {
      var prefix := vs[..|vs| - 1];
      OutputIsCallLog(t, prefix, clock[..|vs| - 1]);
      SendAllKeepsQueues(t, prefix, clock[..|vs| - 1]);
      assert vs == prefix + [vs[|vs| - 1]];
    }
  }

  lemma {:induction false} SendAllKeepsQueues(t: Transmitter, vs: seq<Verdict>, clock: seq<Timestamp>)
    requires |clock| == |vs|
    ensures SendAll(t, vs, clock).hasOutputQueue == t.hasOutputQueue
    ensures SendAll(t, vs, clock).hasTimeQueue == t.hasTimeQueue
    decreases |vs|
  {
    if vs != [] {
      SendAllKeepsQueues(t, vs[..|vs| - 1], clock[..|vs| - 1]);
    }
  }

  /** Streaming is on exactly when an output queue was supplied, and then
      every verdict of a run reaches it. */
  lemma StreamingDeliversEveryVerdict(hasOutputQueue: bool, hasTimeQueue: bool, vs: seq<Verdict>, clock: seq<Timestamp>)
    requires |clock| == |vs|
    ensures UseStreaming(New(hasOutputQueue, hasTimeQueue)) <==> hasOutputQueue
    ensures SendAll(New(hasOutputQueue, hasTimeQueue), vs, clock).output == (if hasOutputQueue then vs else [])
  {
    OutputIsCallLog(New(hasOutputQueue, hasTimeQueue), vs, clock);
  }
}
